=== FILE: README.md ===
# Form 100 dictation: a Dafny model

This project models the logic under a medical-dictation application. A doctor records a
conversation in the browser. A Flask server records the audio, has it transcribed, has a
language model extract 25 fields, and fills the Georgian "Form 100" medical certificate
from them. The clinician then reviews and edits the filled form and saves it.

The model covers five pieces of the system:

- **The App session** (`AppSession`, frontend/src/App.tsx). It covers:
  - the one-second tick, which stops the recording on its own at 180 seconds;
  - the start handler;
  - the guarded stop handler, which calls stop, process, get-form and get-transcription in turn;
  - the `MM:SS` clock (`TimeFormat`, over the decimal digits in `Decimal`);
  - the time left and the warning window;
  - what the page shows.
- **The polling session** (`PollingSession`, frontend/src/components/Recording.tsx). Its tick has no ceiling and asks the server whether it is still recording. Its stop handler is unguarded and navigates to the processed document.
- **The server** (`Server`, backend/app.py). It covers:
  - the `recording_status` record;
  - the start, stop, status, process, get-form, get-transcription and save-form endpoints;
  - the status codes they answer with.
- **The recorder and the form filler** (`Recorder` and `Form100`, backend/recorder.py). It covers:
  - the module flags and the WAV files they produce, kept in an abstract file store;
  - the filename fallback and the not-found check of `process_recording`;
  - the 16-section Form 100 template;
  - the title-by-title map that copies the 25 extracted fields into the template.
- **The form editor** (`DocumentEditor`, frontend/src/components/DocumentForm.tsx). It covers:
  - loading the form and the transcript;
  - point edits of one section or one subsection;
  - the textarea row rules, which depend on substrings of the titles;
  - the render guard.

Shared modules and end-to-end lemmas:

- `Form` holds the form tree that all three layers exchange.
- `Api` holds the wire values:
  - response bodies and the server's error statuses;
  - `Deliver`, which turns a server response into what an `axios` call yields;
  - the calls a client issues.
- `EndToEnd` puts a client handler together with the server: each reply the handler receives is the delivered server response. This connects the three layers, on the assumption that every client reaches the same server. As written, only App.tsx uses the server's port; see "## Left out".

## How the model works

- **Handlers are pure functions.** Each client handler takes the state and the replies to the calls it awaits. It returns a `Step`: the final state and the calls it issued, in order. So "no remote call was made" can be stated and proved.
- **External inputs are parameters.** The following are given as inputs:
  - the audio chunks;
  - the uuid token of a file name;
  - the clock reading at start;
  - the two external services' results, as a transcript or an exception message, and as a 25-field record or an exception message.
- **Files are an abstract store.** The server's working directory is a `Store`. It holds the WAV files by name, `transcription.txt` and `filled_form100.json`.

## Where the code differs from its description

The model follows the code in each case below.

- **Start resets the clock even when already recording.** `handleStartRecording` in App.tsx sets the time to 0 before it sends the request. So a start that the server answers with `already_recording` still resets the clock (`AppSession.HandleStart`).
- **An unexpected stop status leaves the spinner up.** In App.tsx, a stop answer other than `processing_started` is not an error. The processing flag stays raised, no error is shown, and no later tick, stop or start lowers it (`AppSession.UnexpectedStopStatusStalls`).
- **App.tsx never reads the process answer.** `/api/process` answers a failed run with status 200 and `{"error": ...}`. The App still goes on to fetch the form. If transcription raised and an earlier form and transcript are on disk, it shows both of them under "Document generated successfully!" (`EndToEnd.FailedProcessShowsEarlierDocument`). If transcription succeeded but extraction raised, the new transcript is already written, so the App shows the earlier form next to the new transcript (`EndToEnd.FailedExtractionMixesDocuments`). If `filled_form100.json` does not exist, it reports get-form's 404 (`EndToEnd.FailedProcessWithNothingStored`).
- **An error answer sends Recording.tsx to `/document/undefined`.** Recording.tsx navigates to `/document/` followed by the process answer's `document` field. An error answer has no such field, so the path ends in `undefined` (`PollingSession.DocumentPath`).
- **Recording.tsx keeps its clock.** Its start does not reset the clock, and its tick has no ceiling (`PollingSession.NoCeiling`).
- **The treatment-recommendation fields get two rows.** The group "მკურნალობის რეკომენდაციები" is shown as a label with no textarea of its own. Its five subsections get two rows each, because none of their own titles contains "მკურნალობა". The 4-row rule applies only to the subsection "დ) ჩატარებული მკურნალობა" (`DocumentEditor.TemplateRows`, `DocumentEditor.TreatmentAdviceRows`).
- **Any existing file can be processed.** `process_recording` checks only that the named file exists. A stored `transcription.txt`, `filled_form100.json` or any other file of the working directory is sent to transcription like a recording (`Recorder.AnyExistingFileIsProcessed`).

## Model

| member | source | states |
|---|---|---|
| Decimal.ParseToDecimal | frontend/src/App.tsx:44 | the decimal text that `toString()` gives a whole number reads back as that number |
| Decimal.ToDecimalLength | frontend/src/App.tsx:44 | a whole number has at most two digits exactly when it is below 100, so padding to two characters only ever adds zeros below 10 |
| TimeFormat.PadStart2 | frontend/src/App.tsx:44 | `padStart(2, '0')` keeps a string of two or more characters and otherwise left-fills with '0' up to length two, keeping the original as the suffix |
| TimeFormat.FormatTimeRoundTrip | frontend/src/App.tsx:41-45 | for every elapsed time, the clock text is minutes, a colon, and two digits of seconds below 60, and it reads back as exactly that number of seconds |
| TimeFormat.FormatTimeShape | frontend/src/components/Recording.tsx:79-83 | the clock (the same formatter in both clients) is exactly five characters with the colon at position 2 if and only if the time is below 6000 seconds |
| Api.DocumentField | frontend/src/components/Recording.tsx:70 | a process answer has a `document` field exactly when it is a filled form, and then it is that form's document name |
| Api.Deliver | frontend/src/App.tsx:120-126 | a call yields the body exactly when the server answered 200; any other status becomes a failure with axios's "Request failed with status code N" message |
| Api.FailureNamesStatus | frontend/src/App.tsx:120-126 | a failure message is the fixed prefix followed by digits that read back as exactly the status code the server sent |
| Recorder.StartRecording | backend/recorder.py:51-71 | starting empties the frames, opens the stream, raises the recording flag, and leaves the current file name alone |
| Recorder.RecordChunk | backend/recorder.py:73-85 | a chunk is appended, with true returned, exactly when a stream is open, recording is on and the read succeeded; otherwise nothing changes and false is returned |
| Recorder.StopRecording | backend/recorder.py:87-108 | stopping lowers the flag, closes the stream, and writes the frames to a new file named `recording_<token>.wav`, which becomes the current file name and is returned; other files are untouched, and the store stays well formed |
| Recorder.StartingStore | backend/app.py:114-136 | the directory a server starts in holds the given files, and `transcription.txt` and `filled_form100.json` exist exactly when an earlier run left their contents |
| Recorder.OutputFilesExistWhenWritten | backend/app.py:114-136 | in a well-formed store, each output file exists exactly when its contents are held, so the existence check and the two get endpoints agree |
| Recorder.RecordAllAppends | backend/recorder.py:73-85 | successive successful chunk reads append their chunks in order |
| Recorder.RecordedFramesReachFile | backend/recorder.py:102-106 | the chunks recorded between a start and a stop are, in order, the contents of the file the stop names |
| Recorder.ProcessRecording | backend/recorder.py:110-196 | a missing name falls back to the current file name. A missing or empty name, or one naming no existing file, gives "Recording file not found" with the store unchanged. A filled form comes back exactly when the file exists and both services answer; it is the template filled with the extracted fields, and the transcript and that form are what gets written. A raised transcription answers its message and writes nothing; a raised extraction answers its message after the new transcript was written, keeping the old form. Audio and other files are never changed, and the store stays well formed |
| Recorder.AnyExistingFileIsProcessed | backend/recorder.py:115-192 | any existing file, a stored transcript or form included, is transcribed and filled like a recording when both services answer |
| Form100.TemplateLayout | backend/recorder.py:139-183 | the template has 16 sections; those at positions 8, 10 and 11 group 4, 5 and 3 subsections, and every other section is plain |
| Form100.TemplateSlotCount | backend/recorder.py:139-183 | the template has 25 text slots (13 plain sections plus 12 subsections), one per field of `Form100Content` |
| Form100.TemplateHeadings | backend/recorder.py:139-183 | read in document order, the template's slot headings are the Georgian headings of the 25 extracted fields in declaration order, and every slot is blank |
| Form100.FillSubsection | backend/recorder.py:326-357 | a subsection keeps its title; its content becomes its group's matching field when its title matches a branch, and it is untouched otherwise |
| Form100.FillSection | backend/recorder.py:309-365 | a section keeps its title and its subsection structure. A plain title gets the matching field as content. A group title (diagnosis, treatment advice, history) with subsections keeps its content and has each subsection filled through that group's branch. A title that matches no branch, or a group title without subsections, leaves the section unchanged |
| Form100.Fill | backend/recorder.py:306-367 | filling keeps the document name and the number, order and titles of sections and subsections, and applies the title chain to every section |
| Form100.FilledFirstSections | backend/recorder.py:310-317 | the first four template sections receive purpose, patient name, birth date and gender |
| Form100.FilledVisitSections | backend/recorder.py:318-325 | the next four template sections receive personal id, address, institution and visit date |
| Form100.FilledDiagnosisSection | backend/recorder.py:326-335 | the diagnosis subsections receive primary diagnosis, additional information, final diagnosis and treatment given, in order, and the section gets no content |
| Form100.FilledTreatmentSection | backend/recorder.py:338-349 | the treatment-recommendation subsections receive medications, procedures, diet, physical activity and further tests, in order |
| Form100.FilledHistorySection | backend/recorder.py:350-357 | the medical-history subsections receive past diseases, allergies and family history, in order |
| Form100.FilledTrailingSections | backend/recorder.py:336-365 | symptoms, risk assessment, doctor's name, signature and additional notes land in their sections |
| Form100.FillTemplateRoundTrip | backend/recorder.py:306-367 | filling the template with any 25 fields keeps its layout and headings, and reading the 25 slots back in document order gives exactly the fields |
| Server.GetStatus | backend/app.py:45-51 | the status endpoint answers exactly the current recording flag and elapsed time |
| Server.StartRecording | backend/app.py:53-74 | an idle server starts the recorder and answers `recording_started` with time 0, recording from the given clock reading with elapsed 0. A recording server answers `already_recording` with its elapsed time and changes nothing |
| Server.StopRecording | backend/app.py:76-98 | a recording server answers `processing_started` with the recorder's new file name and resets the status (not recording, no start time, elapsed 0). An idle server answers `not_recording` and changes nothing |
| Server.ProcessRecording | backend/app.py:100-112 | a missing or empty filename is refused with 400 "No filename provided" and nothing runs; otherwise the answer is status 200 carrying exactly the recorder's outcome, whether a form or an error, and the store becomes what the recorder left |
| Server.Initial | backend/app.py:114-136 | a fresh server is idle and consistent, and holds the transcript and form an earlier run left, if any |
| Server.GetForm | backend/app.py:114-124 | get-form answers the stored form exactly when one was written, and 404 "Form data not found" otherwise |
| Server.GetTranscription | backend/app.py:126-136 | get-transcription answers the stored text exactly when one was written, and 404 "Transcription not found" otherwise |
| Server.SaveForm | backend/app.py:138-149 | save-form answers `form_saved` and touches nothing but the stored form |
| Server.SaveThenGet | backend/app.py:114-149 | after a save, get-form answers the saved form, whatever was stored before |
| Server.NothingSavedYet | backend/app.py:121-122 | a fresh server in a directory without `filled_form100.json` answers get-form with 404 |
| Server.RestartServesEarlierFiles | backend/app.py:114-136 | a server restarted after an earlier run serves the form and transcript that run left |
| Server.ServedExactlyWhenExists | backend/app.py:114-136 | on a consistent server, get-form and get-transcription succeed exactly when `filled_form100.json` and `transcription.txt` exist |
| Server.StartIdempotent | backend/app.py:53-74 | a second start changes nothing and answers `already_recording` with the elapsed time |
| Server.StopIdempotent | backend/app.py:76-98 | a second stop changes nothing and answers `not_recording` |
| Server.EndpointsKeepConsistent | backend/app.py:53-112 | start, stop, process and save keep the status record and the recorder in agreement on whether a recording runs, keep an idle status at no start time and zero elapsed, and keep the store well formed |
| Server.RecordingPipeline | backend/app.py:53-136 | start, stop, then process the returned name with both services answering: process answers the template filled with the fields, and get-form and get-transcription then serve that form and that text |
| AppSession.Initial | frontend/src/App.tsx:9-16 | the page opens on the start screen with the clock at 0 and no warning |
| AppSession.Tick | frontend/src/App.tsx:23-32 | a tick does nothing when not recording; below 179 it adds one second with no call; from 179 on it ends recording at exactly 180 with exactly one stop call |
| AppSession.TickTime | frontend/src/App.tsx:24-31 | below 179 a tick adds one second without stopping; from 179 on it pins the clock at 180 and invokes stop; the clock never passes 180 |
| AppSession.HandleStart | frontend/src/App.tsx:62-80 | start always resets the clock and issues one start call. It enters recording exactly on `recording_started` or `already_recording`. A failed call sets "Error starting recording: ..." and leaves the recording flag as it was |
| AppSession.HandleStop | frontend/src/App.tsx:83-127 | stop while not recording is a no-op with no call. Otherwise recording ends at once, the clock is kept, and exactly one stop call goes out, first |
| AppSession.TestConnection | frontend/src/App.tsx:48-59 | the connection test issues one call; it clears the error on success and sets "Cannot connect to backend: ..." on failure, leaving the recording state alone |
| AppSession.TicksAfterStopDoNothing | frontend/src/App.tsx:19-38 | once recording has ended, any number of ticks change nothing and issue no call |
| AppSession.TicksReachCeilingOnce | frontend/src/App.tsx:19-38 | from a running clock at t, n ticks leave the clock at min(t + n, 180); recording is still on exactly when t + n < 180; exactly one stop call was issued if the ceiling was reached, none otherwise |
| AppSession.CeilingTick | frontend/src/App.tsx:25-28 | the tick that reaches the ceiling ends recording at exactly 180 with one stop call, and later ticks add nothing |
| AppSession.AutoStopAtCeiling | frontend/src/App.tsx:19-38 | from a clock at 0, 180 or more ticks end recording at exactly 180 with one stop call; fewer ticks keep recording with no stop call |
| AppSession.ClockBounded | frontend/src/App.tsx:24-31 | no handler takes the clock past 180 |
| AppSession.TimeLeftWindow | frontend/src/App.tsx:130-153 | within the ceiling the time left is between 0 and 180, and the warning shows exactly during the last 30 seconds before 180 |
| AppSession.NewRecording | frontend/src/App.tsx:192-197 | the new-recording button leaves the document view and changes nothing else |
| AppSession.FreshStartAutoStops | frontend/src/App.tsx:9-38 | a freshly opened page whose start is accepted shows the clock `00:00` with no warning, and its ticks stop it once at 180 and never before |
| AppSession.Render | frontend/src/App.tsx:136-188 | the document shows exactly when its flag is set, then the processing spinner, then the recording view, else the start view; the recording view's clock reads back as the elapsed seconds, and its warning shows exactly in the last 30 seconds, giving the seconds left: 180 minus the clock, between 1 and 30 |
| AppSession.NewRecordingShowsStart | frontend/src/App.tsx:136-197 | from a finished document, "new recording" returns to the start view |
| AppSession.StopSucceeds | frontend/src/App.tsx:87-114 | when all four calls succeed, the document shows with both flags down, holding the fetched form and transcript ('' when the field is missing); the calls were stop, process with the stop's filename, get-form and get-transcription |
| AppSession.StopOrProcessFails | frontend/src/App.tsx:120-126 | a failed stop or process call sets "Error processing recording: ...", lowers both flags, shows no document and fetches nothing |
| AppSession.FetchFails | frontend/src/App.tsx:113-118 | a failed form or transcript fetch sets "Error retrieving document: ..." and lowers the processing flag without showing the document |
| AppSession.UnexpectedStopStatusStalls | frontend/src/App.tsx:95-119 | a stop answer other than `processing_started` issues no process call and leaves the processing flag raised with no error; no later tick, stop or start lowers it |
| AppSession.UnissuedRepliesIgnored | frontend/src/App.tsx:92-112 | the outcome of stop depends only on the replies to the calls it actually issued |
| PollingSession.Initial | frontend/src/components/Recording.tsx:8-11 | the polling client opens idle with the clock at 0, an empty filename and no navigation |
| PollingSession.DocumentPath | frontend/src/components/Recording.tsx:70 | the navigation target is `/document/` followed by the returned document name, or `/document/undefined` for an error answer |
| PollingSession.PollTick | frontend/src/components/Recording.tsx:19-31 | while recording, a tick adds exactly one second and issues one status call, and recording ends exactly when the poll succeeds and reports the server idle; when not recording nothing happens |
| PollingSession.HandleStart | frontend/src/components/Recording.tsx:40-49 | start enters recording exactly on `recording_started` or `already_recording`; anything else, a failure included, leaves the state unchanged |
| PollingSession.HandleStop | frontend/src/components/Recording.tsx:52-76 | stop is unguarded: recording ends and stop is called first. On `processing_started`, the returned filename is stored and sent to process, the flag drops, and success navigates to the document. A failed stop only lowers the flag; another status leaves it raised |
| PollingSession.FreshStartCountsPolls | frontend/src/components/Recording.tsx:8-49 | a freshly opened polling client whose start is accepted reads n seconds after n polls the server answers "still recording", with n status calls and no stop call |
| PollingSession.NoCeiling | frontend/src/components/Recording.tsx:15-37 | while the server keeps recording, n ticks add exactly n seconds with no ceiling, and the calls issued are exactly n status calls, so no stop call |
| PollingSession.ServerStopEndsRecording | frontend/src/components/Recording.tsx:23-30 | a poll reporting the server idle ends recording after one status call, and later ticks do nothing |
| PollingSession.StoredFilenameIsProcessed | frontend/src/components/Recording.tsx:60-70 | the process call carries the very filename the stop stored, and navigation follows the process answer |
| DocumentEditor.Load | frontend/src/components/DocumentForm.tsx:34-51 | loading always ends; any failed fetch sets the fixed load error; a fetched form is kept even when the transcript fetch fails; get-transcription is called only after get-form succeeded |
| DocumentEditor.ContentChange | frontend/src/components/DocumentForm.tsx:58-68 | with no form or an index out of range nothing changes; otherwise only section i's content becomes the text, and the document, section count, order and titles stay |
| DocumentEditor.SubsectionChange | frontend/src/components/DocumentForm.tsx:71-83 | with no form, a section without subsections or an index out of range nothing changes; otherwise only subsection j of section i gets the text |
| DocumentEditor.EditThenRead | frontend/src/components/DocumentForm.tsx:166-182 | after an edit the edited textarea shows the typed text, and every other textarea shows what it showed before |
| DocumentEditor.IncludesOccurs | frontend/src/components/DocumentForm.tsx:170 | `includes` holds exactly when the word occurs at some position of the title |
| DocumentEditor.SubsectionRows | frontend/src/components/DocumentForm.tsx:170 | a subsection textarea has 4 rows if and only if its title contains "მკურნალობა", and 2 otherwise |
| DocumentEditor.SectionRows | frontend/src/components/DocumentForm.tsx:180 | a section textarea has 3 rows if and only if its title contains "შენიშვნები" or "მიზანი", and 1 otherwise |
| DocumentEditor.TemplateRows | frontend/src/components/DocumentForm.tsx:166-181 | on the Form 100 headings, purpose and notes get 3 rows, "დ) ჩატარებული მკურნალობა" gets 4, and medications gets 2 |
| DocumentEditor.TreatmentAdviceRows | frontend/src/components/DocumentForm.tsx:161-171 | each of the five treatment-recommendation subsections gets 2 rows |
| DocumentEditor.Render | frontend/src/components/DocumentForm.tsx:107-121 | the spinner shows exactly while loading; the form shows exactly when loading is over with no error and a form present; otherwise the error panel shows a non-empty message |
| DocumentEditor.LoadThenRender | frontend/src/components/DocumentForm.tsx:34-121 | after a load the spinner is gone, the form shows exactly when both fetches succeeded, and otherwise the fixed load error shows |
| DocumentEditor.HandleSave | frontend/src/components/DocumentForm.tsx:86-94 | "save draft" posts the form on screen and leaves the editor as it was, whatever the answer |
| DocumentEditor.HandleFinish | frontend/src/components/DocumentForm.tsx:96-105 | "sign and save" posts the form on screen and navigates to `/history` exactly when the save succeeds; nothing else changes |
| DocumentEditor.SaveButtonsAgree | frontend/src/components/DocumentForm.tsx:86-105 | both buttons post the same form and neither changes it or the view; only a successful "sign and save" leaves the page |
| EndToEnd.RecordToDocument | frontend/src/App.tsx:83-127 | against an idle server with both services answering, start then stop make the App show the template filled with the extracted fields, plus the transcript. The recorded file's name was sent to process. The editor then loads that same form, whose slots read back as the fields |
| EndToEnd.ServerAnswersStop | backend/app.py:76-136 | a recording server with both services answering gives the stop handler `processing_started` with the new file's name, the filled form from process and get-form, and the transcript from get-transcription, and ends idle |
| EndToEnd.ServerFailsTranscription | backend/recorder.py:118-196 | when transcription raises, the server still answers the stop, answers process with the exception message as the error, and keeps whatever form and transcript were stored before |
| EndToEnd.FailedProcessShowsEarlierDocument | frontend/src/App.tsx:97-112 | when transcription fails but an earlier form and transcript are stored, the App reports success and shows the earlier ones |
| EndToEnd.ServerFailsExtraction | backend/recorder.py:133-196 | when extraction raises, the server answers process with the exception message, has already written the new transcript, and keeps the form it had |
| EndToEnd.FailedExtractionMixesDocuments | frontend/src/App.tsx:97-112 | when extraction fails and an earlier form is stored, the App reports success and shows the earlier form with the new transcript |
| EndToEnd.FailedProcessWithNothingStored | backend/app.py:114-124 | when transcription fails and `filled_form100.json` does not exist, the App shows no document and reports "Error retrieving document: Request failed with status code 404" |
| EndToEnd.MissingFilenameRejected | backend/app.py:106-107 | a process call without a filename, or with an empty one, reaches the client as "Request failed with status code 400" |
| EndToEnd.PollSeesServerStop | frontend/src/components/Recording.tsx:23-30 | after the server stops, the polling client's next tick ends recording with only a status call |
| EndToEnd.PollingStartReachesServer | frontend/src/components/Recording.tsx:40-49 | against an idle or a recording server, the polling client's start puts it in recording with its clock unchanged after one start call, and the server is then recording |
| EndToEnd.PollWhileServerRecords | frontend/src/components/Recording.tsx:23-30 | while the server records, a poll keeps the polling client recording |
| EndToEnd.EditSaveReload | frontend/src/components/DocumentForm.tsx:58-105 | an edited section survives "sign and save" and a reload: the server acknowledges, the editor goes to `/history` on that answer, the reloaded editor shows the new text there and everything else as before, and the form keeps its shape |

## Left out

- Audio capture (pyaudio), the WAV encoding, and the channel and rate settings are left out. A chunk is an opaque byte sequence, and a WAV file is the list of chunks written to it.
- The uuid of a new file name is a parameter (`token`). So is the wall-clock time read at start.
- The background recording thread, its `join`, and the float `elapsed_time` it updates are left out because they are threading and floating point. Elapsed time is whatever the status record holds.
- The `background_recording` at backend/recorder.py:198-218 is left out because it refers to names that do not exist in that module and is never called.
- The ElevenLabs and OpenAI calls are left out as external services. Their results are inputs: a transcript or an exception message, and a 25-field record or an exception message. So are the system prompt and the validation of the parsed record.
- The `/api/test` and `/api/get-audio` endpoints and the global error handler are left out.
- The 500 answers to file errors other than a missing file are left out: get-form, get-transcription and save-form give them.
- A request body that is not JSON is left out.
- Flask routing, CORS, React effects, `setInterval` scheduling, and how `axios` travels are left out. A poll's reply is applied inside the tick that sent it, so an answer arriving after a later tick is not modelled.
- Any answer that does not follow the declared shape is left out, for example a start body without `status`.
- The status and error lines App.tsx displays, the document tabs (`setShowTranscription`, `selectedTab`), and the transcript fallback text are left out. None of them affect the session.
- The alerts after a save in DocumentForm.tsx are left out; a failed save only shows an alert, so it changes nothing in the model.
- The base URLs of the clients are left out. Recording.tsx and DocumentForm.tsx call `http://localhost:5000/api`, while app.py listens on port 5001 and only App.tsx calls 5001. The `EndToEnd` lemmas that pair the polling client or the editor with the server (`PollSeesServerStop`, `PollWhileServerRecords`, `EditSaveReload`, and the editor half of `RecordToDocument`) assume a deployment in which both ports reach this server.
- The contents of files other than recordings and the two output files are left out. The store records only their names, which is all the existence check reads of them. `transcription.txt` and `filled_form100.json` are held by their contents and never by name alone (`Recorder.WellFormed`), so a directory that holds them at start is given by their contents (`Server.Initial`).
- The UI-only components are left out: Layout, Header, Sidebar, Login, History and Dashboard.
- DocumentForm.tsx edits the section objects in place before it sets the state. The model treats each edit as producing a new form, which is what the state holds afterwards.

=== FILE: api.dfy ===
/** The HTTP contract between the React clients and the Flask server, as values:
    response bodies, the server's status codes, what a client's `axios` call yields,
    and the calls a client issues. */
module Api {
  import opened Opt
  import opened Form
  import Decimal

  // Values of the `status` field
  const RecordingStarted := "recording_started"
  const AlreadyRecording := "already_recording"
  const ProcessingStarted := "processing_started"
  const NotRecording := "not_recording"
  const FormSaved := "form_saved"

  /** Body of `/api/start-recording`. */
  datatype StartAck = StartAck(status: string, time: nat)

  /** Body of `/api/stop-recording`; `not_recording` carries no filename. */
  datatype StopAck = StopAck(status: string, filename: Option<string>)

  /** Body of `/api/status`. */
  datatype StatusReport = StatusReport(isRecording: bool, elapsedTime: nat)

  /** Body of `/api/process`, always sent with status 200: the filled form, or `{"error": ...}`. */
  datatype ProcessOutcome = Filled(form: FormData) | ProcessError(error: string)

  /** Body of `/api/get-transcription`; a client may find the field missing. */
  datatype TranscriptBody = TranscriptBody(transcription: Option<string>)

  /** The `document` field of a `/api/process` body, absent in an error body. */
  function DocumentField(o: ProcessOutcome): (r: Option<string>)
    ensures r.Some? <==> o.Filled?
    ensures o.Filled? ==> r.value == o.form.document
  {
    match o
    case Filled(form) => Some(form.document)
    case ProcessError(_) => None
  }

  /** What the server sends: status 200 with a body, or an error status with `{"error": message}`. */
  datatype Response<T> = Success(body: T) | ErrorStatus(code: nat, error: string)

  /** What an awaited `axios` call gives the client: the response data, or a thrown error's `message`. */
  datatype Reply<T> = Ok(body: T) | Failed(message: string)

  const StatusMessagePrefix := "Request failed with status code "

  /** axios resolves on 2xx and rejects otherwise with "Request failed with status code N";
      a transport failure is a `Failed` reply that no server response produces. */
  function Deliver<T>(r: Response<T>): (reply: Reply<T>)
    ensures reply.Ok? <==> r.Success?
    ensures r.Success? ==> reply.body == r.body
    ensures r.ErrorStatus? ==> reply == Failed(StatusMessagePrefix + Decimal.ToDecimal(r.code))
  {
    match r
    case Success(b) => Ok(b)
    case ErrorStatus(code, _) => Failed(StatusMessagePrefix + Decimal.ToDecimal(code))
  }

  /** An error reply names the status it came from: after the fixed prefix, the message is
      the decimal digits of exactly that status code. */
  lemma FailureNamesStatus<T>(r: Response<T>)
    requires r.ErrorStatus?
    ensures var m := Deliver(r).message;
      && |m| > |StatusMessagePrefix|
      && m[..|StatusMessagePrefix|] == StatusMessagePrefix
      && Decimal.AllDigits(m[|StatusMessagePrefix|..])
      && Decimal.ParseDecimal(m[|StatusMessagePrefix|..]) == r.code
  {
    var m := Deliver(r).message;
    assert m[|StatusMessagePrefix|..] == Decimal.ToDecimal(r.code);
    Decimal.ParseToDecimal(r.code);
  }

  /** The remote calls a client issues, in the order it issues them. */
  datatype Call =
    | StartCall
    | StopCall
    | ProcessCall(filename: Option<string>)
    | GetFormCall
    | GetTranscriptionCall
    | StatusCall
    | SaveFormCall(form: FormData)
    | TestCall

  /** How many times `c` was issued. */
  function Count(calls: seq<Call>, c: Call): (n: nat)
    ensures n <= |calls|
    ensures n == 0 <==> c !in calls
  {
    if |calls| == 0 then 0
    else (if calls[0] == c then 1 else 0) + Count(calls[1..], c)
  }

  /** `n` copies of the call `c`. */
  function Repeat(c: Call, n: nat): (r: seq<Call>)
    ensures |r| == n
    ensures forall i :: 0 <= i < n ==> r[i] == c
  {
    if n == 0 then [] else [c] + Repeat(c, n - 1)
  }

  /** `n` copies of `c` count as `n` issues of `c`. */
  lemma {:induction false} CountRepeat(c: Call, n: nat)
    ensures Count(Repeat(c, n), c) == n
  {
    if n > 0 {
      assert Repeat(c, n)[1..] == Repeat(c, n - 1);
      CountRepeat(c, n - 1);
    }
  }

  /** A client-side handler's result: the new state and the calls it issued. */
  datatype Step<S> = Step(state: S, calls: seq<Call>)
}

=== FILE: app_session.dfy ===
/** The recording session of frontend/src/App.tsx: its state hooks, the one-second tick
    with the 180-second ceiling, the start and stop handlers, and the derived clock and
    time-left warning. Each handler is one function from the state and the replies its
    awaited calls receive to the final state and the calls it issued; a reply for a call
    the handler never issues is ignored. */
module AppSession {
  import opened Opt
  import opened Form
  import opened Api
  import TimeFormat

  const MaxRecordingTime: nat := 180

  /** The `useState` hooks that drive the session (the transcript tab toggle is left out). */
  datatype Session = Session(
    isRecording: bool,
    recordingTime: nat,
    processingTranscription: bool,
    formData: Option<FormData>,
    transcription: string,
    showDocument: bool,
    status: string,
    error: string)

  /** The hooks' initial values: the page opens on the start screen with the clock at 0. */
  function Initial(): (s: Session)
    ensures Render(s) == IdleScreen
    ensures s.recordingTime == 0 && !Warning(s)
  {
    Session(false, 0, false, None, "", false, "", "")
  }

  /** The replies the awaited calls of the stop handler receive, in issue order. */
  datatype StopReplies = StopReplies(
    stop: Reply<StopAck>,
    process: Reply<ProcessOutcome>,
    form: Reply<FormData>,
    transcript: Reply<TranscriptBody>)

  // Status and error texts
  const StartingStatus := "Starting recording..."
  const RecordingStatus := "Recording in progress..."
  const ProcessingStatus := "Processing recording..."
  const TranscribingStatus := "Transcribing audio and generating document..."
  const DoneStatus := "Document generated successfully!"
  const StartErrorPrefix := "Error starting recording: "
  const ProcessErrorPrefix := "Error processing recording: "
  const RetrieveErrorPrefix := "Error retrieving document: "

  /** The `setRecordingTime` updater: the next time, and whether it invoked the stop handler. */
  function TickTime(prev: nat): (r: (nat, bool))
    ensures r.1 <==> prev >= MaxRecordingTime - 1
    ensures r.0 <= MaxRecordingTime
    ensures !r.1 ==> r.0 == prev + 1
    ensures r.1 ==> r.0 == MaxRecordingTime
  {
    if prev >= MaxRecordingTime - 1 then (MaxRecordingTime, true) else (prev + 1, false)
  }

  /** `handleStartRecording`: always clears the error and resets the clock, then enters
      recording only on `recording_started` or `already_recording`. */
  function HandleStart(s: Session, reply: Reply<StartAck>): (r: Step<Session>)
    ensures r.calls == [StartCall]
    ensures r.state.recordingTime == 0
    ensures r.state.isRecording <==>
      (s.isRecording || (reply.Ok? && reply.body.status in {RecordingStarted, AlreadyRecording}))
    ensures reply.Ok? ==> r.state.error == ""
    ensures reply.Failed? ==> r.state.error == StartErrorPrefix + reply.message && r.state.isRecording == s.isRecording
    ensures r.state.processingTranscription == s.processingTranscription
    ensures r.state.formData == s.formData && r.state.transcription == s.transcription
  {
    var s1 := s.(status := StartingStatus, error := "", recordingTime := 0);
    match reply
    case Ok(ack) =>
      if ack.status == RecordingStarted || ack.status == AlreadyRecording
      then Step(s1.(isRecording := true, showDocument := false, status := RecordingStatus), [StartCall])
      else Step(s1, [StartCall])
    case Failed(m) => Step(s1.(error := StartErrorPrefix + m), [StartCall])
  }

  /** `handleStopRecording`. Not recording: nothing happens. Otherwise recording ends at once,
      the processing flag is raised, and the calls stop, process, get-form and get-transcription
      follow one another while each succeeds. A stop answer other than `processing_started`
      ends the handler there, with the processing flag still raised. */
  function HandleStop(s: Session, replies: StopReplies): (r: Step<Session>)
    ensures !s.isRecording ==> r == Step(s, [])
    ensures s.isRecording ==>
      && !r.state.isRecording
      && r.state.recordingTime == s.recordingTime
      && |r.calls| >= 1 && r.calls[0] == StopCall && Count(r.calls, StopCall) == 1
  {
    if !s.isRecording then Step(s, [])
    else
      var s1 := s.(isRecording := false, status := ProcessingStatus, processingTranscription := true);
      match replies.stop
      case Failed(m) =>
        Step(s1.(error := ProcessErrorPrefix + m, processingTranscription := false, isRecording := false), [StopCall])
      case Ok(ack) =>
        if ack.status != ProcessingStarted then Step(s1, [StopCall])
        else
          var s2 := s1.(status := TranscribingStatus);
          var issued := [StopCall, ProcessCall(ack.filename)];
          match replies.process
          case Failed(m) =>
            Step(s2.(error := ProcessErrorPrefix + m, processingTranscription := false, isRecording := false), issued)
          case Ok(_) =>
            match replies.form
            case Failed(m) =>
              Step(s2.(error := RetrieveErrorPrefix + m, processingTranscription := false), issued + [GetFormCall])
            case Ok(form) =>
              var s3 := s2.(formData := Some(form));
              match replies.transcript
              case Failed(m) =>
                Step(s3.(error := RetrieveErrorPrefix + m, processingTranscription := false),
                     issued + [GetFormCall, GetTranscriptionCall])
              case Ok(body) =>
                Step(s3.(transcription := body.transcription.GetOr(""), processingTranscription := false,
                         showDocument := true, status := DoneStatus),
                     issued + [GetFormCall, GetTranscriptionCall])
  }

  /** One firing of the one-second interval, which exists only while recording. Reaching the
      ceiling invokes the stop handler and pins the clock at 180. */
  function Tick(s: Session, replies: StopReplies): (r: Step<Session>)
    ensures !s.isRecording ==> r == Step(s, [])
    ensures s.isRecording && s.recordingTime < MaxRecordingTime - 1 ==>
      r == Step(s.(recordingTime := s.recordingTime + 1), [])
    ensures s.isRecording && s.recordingTime >= MaxRecordingTime - 1 ==>
      && !r.state.isRecording && r.state.recordingTime == MaxRecordingTime
      && Count(r.calls, StopCall) == 1
  {
    if !s.isRecording then Step(s, [])
    else
      var (next, stop) := TickTime(s.recordingTime);
      if stop then HandleStop(s.(recordingTime := next), replies)
      else Step(s.(recordingTime := next), [])
  }

  /** The "new recording" button: back from the document view; nothing else changes. */
  function NewRecording(s: Session): (r: Session)
    ensures !r.showDocument
    ensures r.(showDocument := s.showDocument) == s
  {
    s.(showDocument := false)
  }

  /** `testBackendConnection`: sets the status line, and the error on failure. */
  function TestConnection(s: Session, reply: Reply<string>): (r: Step<Session>)
    ensures r.calls == [TestCall]
    ensures reply.Ok? ==> r.state.error == ""
    ensures reply.Failed? ==> r.state.error == "Cannot connect to backend: " + reply.message
    ensures r.state.isRecording == s.isRecording && r.state.recordingTime == s.recordingTime
  {
    match reply
    case Ok(status) => Step(s.(status := "Connection successful: " + status, error := ""), [TestCall])
    case Failed(m) => Step(s.(status := "Connection failed!", error := "Cannot connect to backend: " + m), [TestCall])
  }

  /** `timeLeft`. */
  function TimeLeft(s: Session): int {
    MaxRecordingTime as int - s.recordingTime as int
  }

  /** The time-left warning condition. */
  predicate Warning(s: Session) {
    TimeLeft(s) <= 30 && TimeLeft(s) > 0
  }

  /** What the page shows, in the order the markup evaluates its conditions. */
  datatype Screen =
    | DocumentScreen
    | ProcessingScreen
    | RecordingScreen(clock: string, warningSeconds: Option<int>)
    | IdleScreen

  function Render(s: Session): (v: Screen)
    ensures v == DocumentScreen <==> s.showDocument
    ensures v == ProcessingScreen <==> !s.showDocument && s.processingTranscription
    ensures v.RecordingScreen? <==> !s.showDocument && !s.processingTranscription && s.isRecording
    ensures v.RecordingScreen? ==> TimeFormat.ParseTime(v.clock) == Some(s.recordingTime)
    ensures v.RecordingScreen? ==> (v.warningSeconds.Some? <==> MaxRecordingTime - 30 <= s.recordingTime < MaxRecordingTime)
    ensures v.RecordingScreen? && v.warningSeconds.Some? ==> 0 < v.warningSeconds.value <= 30
    ensures v.RecordingScreen? && v.warningSeconds.Some? ==>
      v.warningSeconds.value == MaxRecordingTime - s.recordingTime
  {
    TimeFormat.FormatTimeRoundTrip(s.recordingTime);
    if s.showDocument then DocumentScreen
    else if s.processingTranscription then ProcessingScreen
    else if s.isRecording then
      RecordingScreen(TimeFormat.FormatTime(s.recordingTime), if Warning(s) then Some(TimeLeft(s)) else None)
    else IdleScreen
  }

  /** "New recording" leaves a finished document for the start screen. */
  lemma NewRecordingShowsStart(s: Session)
    requires s.showDocument && !s.isRecording && !s.processingTranscription
    ensures Render(s) == DocumentScreen
    ensures Render(NewRecording(s)) == IdleScreen
  {
  }

  /** `n` successive ticks, with the calls they issued in order. */
  function RunTicks(s: Session, n: nat, replies: StopReplies): Step<Session>
    decreases n
  {
    if n == 0 then Step(s, [])
    else
      var first := Tick(s, replies);
      var rest := RunTicks(first.state, n - 1, replies);
      Step(rest.state, first.calls + rest.calls)
  }

  /** Once recording has ended no tick fires: the interval is gone. */
  lemma {:induction false} TicksAfterStopDoNothing(s: Session, n: nat, replies: StopReplies)
    requires !s.isRecording
    ensures RunTicks(s, n, replies) == Step(s, [])
    decreases n
  {
    if n > 0 {
      TicksAfterStopDoNothing(s, n - 1, replies);
    }
  }

  /** From a running clock at `t` seconds, `n` ticks leave the clock at min(t + n, 180); recording
      is still on exactly when the ceiling was not reached; and the stop call was issued exactly
      once if the ceiling was reached, never otherwise. */
  lemma {:induction false} TicksReachCeilingOnce(s: Session, n: nat, replies: StopReplies)
    requires s.isRecording && s.recordingTime < MaxRecordingTime
    ensures var r := RunTicks(s, n, replies);
      && r.state.recordingTime == (if s.recordingTime + n >= MaxRecordingTime then MaxRecordingTime else s.recordingTime + n)
      && (r.state.isRecording <==> s.recordingTime + n < MaxRecordingTime)
      && Count(r.calls, StopCall) == (if s.recordingTime + n >= MaxRecordingTime then 1 else 0)
    decreases n
  {
    if n > 0 {
      if s.recordingTime + 1 >= MaxRecordingTime {
        CeilingTick(s, n, replies);
      } else {
        var first := Tick(s, replies);
        assert first == Step(s.(recordingTime := s.recordingTime + 1), []);
        TicksReachCeilingOnce(first.state, n - 1, replies);
        assert RunTicks(s, n, replies) == RunTicks(first.state, n - 1, replies);
      }
    }
  }

  /** The tick that reaches the ceiling stops once, and the ticks after it do nothing. */
  lemma CeilingTick(s: Session, n: nat, replies: StopReplies)
    requires s.isRecording && s.recordingTime >= MaxRecordingTime - 1 && n > 0
    ensures var r := RunTicks(s, n, replies);
      && r.state.recordingTime == MaxRecordingTime && !r.state.isRecording
      && Count(r.calls, StopCall) == 1
  {
    var first := Tick(s, replies);
    TicksAfterStopDoNothing(first.state, n - 1, replies);
    assert first.calls + [] == first.calls;
  }

  /** Starting from a clock at 0: after 180 ticks or more the clock reads exactly 180, recording
      has ended, and exactly one stop call went out; before that, no stop call at all. */
  lemma AutoStopAtCeiling(s: Session, n: nat, replies: StopReplies)
    requires s.isRecording && s.recordingTime == 0
    ensures var r := RunTicks(s, n, replies);
      && r.state.recordingTime <= MaxRecordingTime
      && (n >= MaxRecordingTime ==> r.state.recordingTime == MaxRecordingTime && !r.state.isRecording && Count(r.calls, StopCall) == 1)
      && (n < MaxRecordingTime ==> r.state.recordingTime == n && r.state.isRecording && StopCall !in r.calls)
  {
    TicksReachCeilingOnce(s, n, replies);
  }

  /** A fresh page whose start is accepted counts up from 0 and stops itself at the ceiling:
      after 180 ticks or more exactly one stop call went out, before that none. */
  lemma FreshStartAutoStops(ack: StartAck, n: nat, replies: StopReplies)
    requires ack.status in {RecordingStarted, AlreadyRecording}
    ensures var started := HandleStart(Initial(), Ok(ack)).state;
      var r := RunTicks(started, n, replies);
      && started.isRecording && Render(started) == RecordingScreen("00:00", None)
      && (n >= MaxRecordingTime ==> r.state.recordingTime == MaxRecordingTime && !r.state.isRecording && Count(r.calls, StopCall) == 1)
      && (n < MaxRecordingTime ==> r.state.recordingTime == n && r.state.isRecording && StopCall !in r.calls)
  {
    var started := HandleStart(Initial(), Ok(ack)).state;
    AutoStopAtCeiling(started, n, replies);
  }

  /** The clock never passes the ceiling: every handler keeps `recordingTime <= 180`. */
  lemma ClockBounded(s: Session, replies: StopReplies, start: Reply<StartAck>, test: Reply<string>)
    requires s.recordingTime <= MaxRecordingTime
    ensures Tick(s, replies).state.recordingTime <= MaxRecordingTime
    ensures HandleStop(s, replies).state.recordingTime <= MaxRecordingTime
    ensures HandleStart(s, start).state.recordingTime <= MaxRecordingTime
    ensures TestConnection(s, test).state.recordingTime <= MaxRecordingTime
    ensures NewRecording(s).recordingTime <= MaxRecordingTime
  {
  }

  /** Within the ceiling, the time left is between 0 and 180, and the warning shows exactly
      during the last 30 seconds before the ceiling. */
  lemma TimeLeftWindow(s: Session)
    requires s.recordingTime <= MaxRecordingTime
    ensures 0 <= TimeLeft(s) <= MaxRecordingTime
    ensures Warning(s) <==> MaxRecordingTime - 30 <= s.recordingTime < MaxRecordingTime
  {
  }

  /** All four calls succeed: the document is shown, the flags are down, the fetched form and
      transcript (or '' when the field is missing) are held, and the calls went out in order
      with the stop's filename passed to process. */
  lemma StopSucceeds(s: Session, filename: Option<string>, outcome: ProcessOutcome, form: FormData, body: TranscriptBody)
    requires s.isRecording
    ensures var r := HandleStop(s, StopReplies(Ok(StopAck(ProcessingStarted, filename)), Ok(outcome), Ok(form), Ok(body)));
      && !r.state.isRecording && !r.state.processingTranscription && r.state.showDocument
      && r.state.formData == Some(form)
      && r.state.transcription == (if body.transcription.Some? then body.transcription.value else "")
      && r.state.error == s.error
      && r.state.status == DoneStatus
      && r.calls == [StopCall, ProcessCall(filename), GetFormCall, GetTranscriptionCall]
  {
  }

  /** A failed stop or process call: error set, both flags down, no document, nothing fetched. */
  lemma StopOrProcessFails(s: Session, replies: StopReplies)
    requires s.isRecording
    requires replies.stop.Failed? || (replies.stop.body.status == ProcessingStarted && replies.process.Failed?)
    ensures var r := HandleStop(s, replies);
      && !r.state.isRecording && !r.state.processingTranscription
      && r.state.showDocument == s.showDocument
      && r.state.formData == s.formData
      && (replies.stop.Failed? ==> r.state.error == ProcessErrorPrefix + replies.stop.message)
      && (replies.stop.Ok? ==> r.state.error == ProcessErrorPrefix + replies.process.message)
      && GetFormCall !in r.calls
  {
  }

  /** A failed form or transcript fetch: "Error retrieving document", processing flag down,
      no document shown. */
  lemma FetchFails(s: Session, replies: StopReplies)
    requires s.isRecording
    requires replies.stop.Ok? && replies.stop.body.status == ProcessingStarted && replies.process.Ok?
    requires replies.form.Failed? || replies.transcript.Failed?
    ensures var r := HandleStop(s, replies);
      && !r.state.isRecording && !r.state.processingTranscription
      && r.state.showDocument == s.showDocument
      && r.state.error == RetrieveErrorPrefix + (if replies.form.Failed? then replies.form.message else replies.transcript.message)
      && (replies.form.Ok? ==> r.state.formData == Some(replies.form.body))
  {
  }

  /** A stop answer other than `processing_started` issues no process call and leaves the
      processing flag raised with no error; from then on neither a tick, nor a stop, nor a
      start lowers it, so the processing spinner stays up. */
  lemma UnexpectedStopStatusStalls(s: Session, replies: StopReplies, more: StopReplies, start: Reply<StartAck>)
    requires s.isRecording && !s.showDocument
    requires replies.stop.Ok? && replies.stop.body.status != ProcessingStarted
    ensures var r := HandleStop(s, replies);
      && r.calls == [StopCall]
      && r.state.processingTranscription && !r.state.isRecording
      && r.state.error == s.error
      && Render(r.state) == ProcessingScreen
      && Tick(r.state, more) == Step(r.state, [])
      && HandleStop(r.state, more) == Step(r.state, [])
      && Render(HandleStart(r.state, start).state) == ProcessingScreen
  {
  }

  /** Replies to calls that are never issued do not matter. */
  lemma UnissuedRepliesIgnored(s: Session, a: StopReplies, b: StopReplies)
    requires a.stop == b.stop
    requires a.stop.Ok? && a.stop.body.status == ProcessingStarted ==> a.process == b.process
    requires a.stop.Ok? && a.stop.body.status == ProcessingStarted && a.process.Ok? ==> a.form == b.form
    requires a.stop.Ok? && a.stop.body.status == ProcessingStarted && a.process.Ok? && a.form.Ok? ==> a.transcript == b.transcript
    ensures HandleStop(s, a) == HandleStop(s, b)
  {
  }
}

=== FILE: decimal.dfy ===
/** Decimal digit strings: the `Number.prototype.toString()` of a
    non-negative integer, and the reader that undoes it. */
module Decimal {

  predicate IsDigit(c: char) {
    '0' <= c <= '9'
  }

  predicate AllDigits(s: string) {
    forall i :: 0 <= i < |s| ==> IsDigit(s[i])
  }

  function DigitChar(d: nat): (c: char)
    requires d < 10
    ensures IsDigit(c)
    ensures c as int - '0' as int == d
  {
    ['0', '1', '2', '3', '4', '5', '6', '7', '8', '9'][d]
  }

  function DigitValue(c: char): (d: nat)
    requires IsDigit(c)
    ensures d < 10
  {
    c as int - '0' as int
  }

  /** Shortest decimal representation of `n`: "0" for zero, no leading zeros otherwise. */
  function ToDecimal(n: nat): (s: string)
    ensures AllDigits(s)
    ensures 1 <= |s|
    ensures |s| == 1 <==> n < 10
    ensures s[0] == '0' ==> n == 0
    decreases n
  {
    if n < 10 then [DigitChar(n)] else ToDecimal(n / 10) + [DigitChar(n % 10)]
  }

  /** Reads a string of decimal digits, most significant first; leading zeros are allowed. */
  function ParseDecimal(s: string): nat
    requires AllDigits(s)
  {
    if |s| == 0 then 0 else ParseDecimal(s[..|s| - 1]) * 10 + DigitValue(s[|s| - 1])
  }

  /** Reading back what `ToDecimal` writes gives the number. */
  lemma {:induction false} ParseToDecimal(n: nat)
    ensures ParseDecimal(ToDecimal(n)) == n
    decreases n
  {
    if n >= 10 {
      var s := ToDecimal(n);
      assert s[..|s| - 1] == ToDecimal(n / 10);
      ParseToDecimal(n / 10);
    }
  }

  /** A leading zero does not change the value read. */
  lemma {:induction false} ParseLeadingZero(s: string)
    requires AllDigits(s)
    ensures AllDigits("0" + s)
    ensures ParseDecimal("0" + s) == ParseDecimal(s)
    decreases |s|
  {
    assert AllDigits("0" + s) by {
      forall i | 0 <= i < |"0" + s|
        ensures IsDigit(("0" + s)[i])
      {
        if i > 0 {
          assert ("0" + s)[i] == s[i - 1];
        }
      }
    }
    if |s| > 0 {
      var t := "0" + s;
      assert t[..|t| - 1] == "0" + s[..|s| - 1];
      ParseLeadingZero(s[..|s| - 1]);
    }
  }

  /** Two digits are enough exactly below one hundred. */
  lemma {:induction false} ToDecimalLength(n: nat)
    ensures |ToDecimal(n)| <= 2 <==> n < 100
    ensures n >= 10 ==> |ToDecimal(n)| == |ToDecimal(n / 10)| + 1
  {
    if n >= 10 {
      ToDecimalLength(n / 10);
    }
  }
}

=== FILE: document_editor.dfy ===
/** The form editor of frontend/src/components/DocumentForm.tsx: loading the form and
    transcript, point edits of one section or one subsection, the textarea row rules and
    the render guard. */
module DocumentEditor {
  import opened Opt
  import opened Form
  import opened Api
  import Form100

  datatype Tab = FilledTab | OriginalTab

  /** The `useState` hooks of the editor, plus the last `navigate` target. */
  datatype Editor = Editor(
    formData: Option<FormData>,
    transcription: Option<string>,
    selectedTab: Tab,
    isLoading: bool,
    error: string,
    navigatedTo: Option<string>)

  function Initial(): Editor {
    Editor(None, Some(""), FilledTab, true, "", None)
  }

  const LoadError := "დოკუმენტის ჩატვირთვა ვერ მოხერხდა"

  /** `fetchData`: get-form, then get-transcription; either failure sets the fixed error. The
      form is kept even when the transcript fetch fails. Loading always ends. */
  function Load(e: Editor, form: Reply<FormData>, transcript: Reply<TranscriptBody>): (r: Step<Editor>)
    ensures !r.state.isLoading
    ensures r.calls == if form.Ok? then [GetFormCall, GetTranscriptionCall] else [GetFormCall]
    ensures form.Failed? || transcript.Failed? ==> r.state.error == LoadError
    ensures form.Ok? && transcript.Ok? ==> r.state.error == e.error && r.state.transcription == transcript.body.transcription
    ensures r.state.formData == if form.Ok? then Some(form.body) else e.formData
  {
    var e1 := e.(isLoading := true);
    match form
    case Failed(_) => Step(e1.(error := LoadError, isLoading := false), [GetFormCall])
    case Ok(f) =>
      var e2 := e1.(formData := Some(f));
      match transcript
      case Failed(_) => Step(e2.(error := LoadError, isLoading := false), [GetFormCall, GetTranscriptionCall])
      case Ok(body) => Step(e2.(transcription := body.transcription, isLoading := false), [GetFormCall, GetTranscriptionCall])
  }

  /** `handleContentChange(i, c)`. No form: nothing happens. An index outside the sections
      throws before the state is set, so nothing happens either. */
  function ContentChange(e: Editor, i: int, c: string): (r: Editor)
    ensures e.formData.None? || !(0 <= i < |e.formData.value.sections|) ==> r == e
    ensures e.formData.Some? && 0 <= i < |e.formData.value.sections| ==>
      && r.formData.Some?
      && SameShape(e.formData.value, r.formData.value)
      && r.formData.value.sections[i] == e.formData.value.sections[i].(content := Some(c))
      && (forall k :: 0 <= k < |e.formData.value.sections| && k != i ==>
            r.formData.value.sections[k] == e.formData.value.sections[k])
      && r == e.(formData := r.formData)
  {
    match e.formData
    case None => e
    case Some(f) =>
      if 0 <= i < |f.sections| then
        e.(formData := Some(f.(sections := f.sections[i := f.sections[i].(content := Some(c))])))
      else e
  }

  /** `handleSubsectionChange(i, j, c)`. No form, or a section without subsections: nothing
      happens; out-of-range indices throw before the state is set. */
  function SubsectionChange(e: Editor, i: int, j: int, c: string): (r: Editor)
    ensures
      || e.formData.None?
      || !(0 <= i < |e.formData.value.sections|)
      || e.formData.value.sections[i].subsections.None?
      || !(0 <= j < |e.formData.value.sections[i].subsections.value|)
      ==> r == e
    ensures
      && e.formData.Some?
      && 0 <= i < |e.formData.value.sections|
      && e.formData.value.sections[i].subsections.Some?
      && 0 <= j < |e.formData.value.sections[i].subsections.value|
      ==>
      var before := e.formData.value.sections;
      var subs := before[i].subsections.value;
      && r.formData.Some?
      && SameShape(e.formData.value, r.formData.value)
      && (forall k :: 0 <= k < |before| && k != i ==> r.formData.value.sections[k] == before[k])
      && r.formData.value.sections[i].title == before[i].title
      && r.formData.value.sections[i].content == before[i].content
      && r.formData.value.sections[i].subsections.value[j] == subs[j].(content := c)
      && (forall m :: 0 <= m < |subs| && m != j ==> r.formData.value.sections[i].subsections.value[m] == subs[m])
      && r == e.(formData := r.formData)
  {
    match e.formData
    case None => e
    case Some(f) =>
      if 0 <= i < |f.sections| then
        match f.sections[i].subsections
        case None => e
        case Some(subs) =>
          if 0 <= j < |subs| then
            var section := f.sections[i].(subsections := Some(subs[j := subs[j].(content := c)]));
            e.(formData := Some(f.(sections := f.sections[i := section])))
          else e
      else e
  }

  /** The `value` bound to section i's textarea. */
  function SectionValue(e: Editor, i: int): Option<string> {
    if e.formData.Some? && 0 <= i < |e.formData.value.sections| then e.formData.value.sections[i].content else None
  }

  /** The `value` bound to the textarea of subsection j of section i. */
  function SubsectionValue(e: Editor, i: int, j: int): Option<string> {
    if e.formData.Some? && 0 <= i < |e.formData.value.sections|
       && e.formData.value.sections[i].subsections.Some?
       && 0 <= j < |e.formData.value.sections[i].subsections.value|
    then Some(e.formData.value.sections[i].subsections.value[j].content)
    else None
  }

  /** What a textarea shows after an edit is the text typed; every other textarea keeps its value. */
  lemma EditThenRead(e: Editor, i: int, j: int, c: string, i2: int, j2: int)
    ensures e.formData.Some? && 0 <= i < |e.formData.value.sections| ==>
      && SectionValue(ContentChange(e, i, c), i) == Some(c)
      && (i2 != i ==> SectionValue(ContentChange(e, i, c), i2) == SectionValue(e, i2))
    ensures SubsectionValue(e, i, j).Some? ==>
      && SubsectionValue(SubsectionChange(e, i, j, c), i, j) == Some(c)
      && ((i2, j2) != (i, j) ==> SubsectionValue(SubsectionChange(e, i, j, c), i2, j2) == SubsectionValue(e, i2, j2))
  {
  }

  /** Whether `t` occurs in `s` (`String.prototype.includes`). */
  function Includes(s: string, t: string): bool
    decreases |s|
  {
    if |t| > |s| then false
    else if s[..|t|] == t then true
    else Includes(s[1..], t)
  }

  /** `t` occurs in `s` starting at position `k`. */
  predicate OccursAt(s: string, t: string, k: int) {
    0 <= k && k + |t| <= |s| && s[k..k + |t|] == t
  }

  /** `Includes` finds exactly the occurrences at some position. */
  lemma {:induction false} IncludesOccurs(s: string, t: string)
    ensures Includes(s, t) <==> exists k :: OccursAt(s, t, k)
    decreases |s|
  {
    if |t| > |s| {
    } else if s[..|t|] == t {
      assert OccursAt(s, t, 0);
    } else {
      IncludesOccurs(s[1..], t);
      if Includes(s[1..], t) {
        var k :| OccursAt(s[1..], t, k);
        assert s[1..][k..k + |t|] == s[k + 1..k + 1 + |t|];
        assert OccursAt(s, t, k + 1);
      } else {
        forall k | OccursAt(s, t, k)
          ensures false
        {
          if k > 0 {
            assert s[1..][k - 1..k - 1 + |t|] == s[k..k + |t|];
            assert OccursAt(s[1..], t, k - 1);
          }
        }
      }
    }
  }

  const TreatmentWord := "მკურნალობა"
  const NotesWord := "შენიშვნები"
  const PurposeWord := "მიზანი"

  /** Rows of a subsection textarea: 4 when its title mentions treatment, else 2. */
  function SubsectionRows(title: string): (rows: nat)
    ensures rows == 4 <==> exists k :: OccursAt(title, TreatmentWord, k)
    ensures rows == 4 || rows == 2
  {
    IncludesOccurs(title, TreatmentWord);
    if Includes(title, TreatmentWord) then 4 else 2
  }

  /** Rows of a section textarea: 3 when its title mentions notes or purpose, else 1. */
  function SectionRows(title: string): (rows: nat)
    ensures rows == 3 <==>
      || (exists k :: OccursAt(title, NotesWord, k))
      || (exists k :: OccursAt(title, PurposeWord, k))
    ensures rows == 3 || rows == 1
  {
    IncludesOccurs(title, NotesWord);
    IncludesOccurs(title, PurposeWord);
    if Includes(title, NotesWord) || Includes(title, PurposeWord) then 3 else 1
  }

  /** `t` occurs nowhere in `s` when each window of `s` differs from `t` at its first or
      second letter. */
  lemma NotIncluded(s: string, t: string)
    requires |t| >= 2
    requires forall k :: 0 <= k && k + |t| <= |s| ==> s[k] != t[0] || s[k + 1] != t[1]
    ensures !exists k :: OccursAt(s, t, k)
  {
    forall k | 0 <= k && k + |t| <= |s|
      ensures !OccursAt(s, t, k)
    {
      assert s[k..k + |t|][0] == s[k] && s[k..k + |t|][1] == s[k + 1];
    }
  }

  /** On the Form 100 template the purpose and notes fields get three rows and the
      administered-treatment subsection gets four. The treatment-recommendation group has no
      textarea of its own; its subsections get two rows each (`TreatmentAdviceRows`). */
  lemma TemplateRows()
    ensures SectionRows(Form100.PurposeTitle) == 3
    ensures SectionRows(Form100.NotesTitle) == 3
    ensures SubsectionRows(Form100.TreatmentUsedTitle) == 4
    ensures SubsectionRows(Form100.MedicationsTitle) == 2
  {
    assert OccursAt(Form100.PurposeTitle, PurposeWord, 8);
    assert OccursAt(Form100.NotesTitle, NotesWord, 11);
    assert OccursAt(Form100.TreatmentUsedTitle, TreatmentWord, 14);
    NotIncluded(Form100.MedicationsTitle, TreatmentWord);
  }

  /** None of the treatment-recommendation subsection titles contains the treatment word, so
      each of those textareas gets two rows. */
  lemma TreatmentAdviceRows()
    ensures SubsectionRows(Form100.MedicationsTitle) == 2
    ensures SubsectionRows(Form100.ProceduresTitle) == 2
    ensures SubsectionRows(Form100.DietTitle) == 2
    ensures SubsectionRows(Form100.ActivityTitle) == 2
    ensures SubsectionRows(Form100.TestsTitle) == 2
  {
    TemplateRows();
    ProceduresAndDietRows();
    ActivityRows();
    TestsRows();
  }

  lemma ActivityRows()
    ensures SubsectionRows(Form100.ActivityTitle) == 2
  {
    NotIncluded(Form100.ActivityTitle, TreatmentWord);
  }

  lemma TestsRows()
    ensures SubsectionRows(Form100.TestsTitle) == 2
  {
    NotIncluded(Form100.TestsTitle, TreatmentWord);
  }

  // Helpers of TreatmentAdviceRows, one or two long titles at a time.
  lemma ProceduresAndDietRows()
    ensures SubsectionRows(Form100.ProceduresTitle) == 2
    ensures SubsectionRows(Form100.DietTitle) == 2
  {
    NotIncluded(Form100.ProceduresTitle, TreatmentWord);
    NotIncluded(Form100.DietTitle, TreatmentWord);
  }

  /** What the component renders. */
  datatype View = Spinner | ErrorPanel(message: string) | FormView(tab: Tab)

  /** While loading only the spinner; then the error panel when there is an error or no form. */
  function Render(e: Editor): (v: View)
    ensures v == Spinner <==> e.isLoading
    ensures v.FormView? <==> !e.isLoading && e.error == "" && e.formData.Some?
    ensures v.ErrorPanel? ==> v.message != ""
  {
    if e.isLoading then Spinner
    else if e.error != "" || e.formData.None? then ErrorPanel(if e.error != "" then e.error else LoadError)
    else FormView(e.selectedTab)
  }

  /** After a load the spinner is gone; starting without an error, the form shows exactly when
      both fetches succeeded, and otherwise the fixed load error shows. */
  lemma LoadThenRender(e: Editor, form: Reply<FormData>, transcript: Reply<TranscriptBody>)
    requires e.error == ""
    ensures var v := Render(Load(e, form, transcript).state);
      && v != Spinner
      && (v.FormView? <==> form.Ok? && transcript.Ok?)
      && (!v.FormView? ==> v == ErrorPanel(LoadError))
  {
  }

  const HistoryPath := "/history"

  /** `handleSave` ("save draft"), reachable only from the form view: posts the form on
      screen; success or failure only raises an alert, so the editor is left as it was. */
  function HandleSave(e: Editor, reply: Reply<string>): (r: Step<Editor>)
    requires Render(e).FormView?
    ensures r.state == e
    ensures r.calls == [SaveFormCall(e.formData.value)]
  {
    Step(e, [SaveFormCall(e.formData.value)])
  }

  /** `handleFinish` ("sign and save"), reachable only from the form view: posts the form on
      screen and, once the save succeeds, navigates to the history page. */
  function HandleFinish(e: Editor, reply: Reply<string>): (r: Step<Editor>)
    requires Render(e).FormView?
    ensures r.calls == [SaveFormCall(e.formData.value)]
    ensures r.state.navigatedTo == if reply.Ok? then Some(HistoryPath) else e.navigatedTo
    ensures r.state == e.(navigatedTo := r.state.navigatedTo)
  {
    match reply
    case Ok(_) => Step(e.(navigatedTo := Some(HistoryPath)), [SaveFormCall(e.formData.value)])
    case Failed(_) => Step(e, [SaveFormCall(e.formData.value)])
  }

  /** Both buttons post the same form, the one on screen, and neither changes it; only a
      successful "sign and save" leaves the page. */
  lemma SaveButtonsAgree(e: Editor, reply: Reply<string>)
    requires Render(e).FormView?
    ensures HandleSave(e, reply).calls == HandleFinish(e, reply).calls
    ensures HandleFinish(e, reply).state.formData == HandleSave(e, reply).state.formData == e.formData
    ensures Render(HandleFinish(e, reply).state) == Render(e)
    ensures HandleFinish(e, reply).state.navigatedTo != e.navigatedTo ==> reply.Ok?
  {
  }
}

=== FILE: end_to_end.dfy ===
/** The clients of frontend/src against the endpoints of backend/app.py: each reply a client
    handler receives is what the server's response becomes under axios (`Deliver`). */
module EndToEnd {
  import opened Opt
  import opened Form
  import opened Api
  import Form100
  import Recorder
  import Server
  import AppSession
  import PollingSession
  import DocumentEditor

  /** The stop handler's replies when the server answers every call it issues: stop, process
      with the filename the stop returned, then get-form and get-transcription on the store
      the process call left. */
  function ServedReplies(s: Server.Server, token: string, speech: Recorder.External<string>,
                         extraction: Recorder.External<Form100.Fields>): (r: (Server.Server, AppSession.StopReplies))
    ensures r.1.stop == Deliver(Server.StopRecording(s, token).1)
  {
    var (s1, stop) := Server.StopRecording(s, token);
    var (s2, processed) := Server.ProcessRecording(s1, stop.body.filename, speech, extraction);
    (s2, AppSession.StopReplies(Deliver(stop), Deliver(processed),
                                Deliver(Server.GetForm(s2)), Deliver(Server.GetTranscription(s2))))
  }

  /** Start, stop and process against an idle server with both services answering: the App
      shows the document, holding the Form 100 template filled with the extracted fields and
      the transcript, after calling stop, process with the recorded file's name, get-form
      and get-transcription; the editor then loads and shows that same form. */
  lemma RecordToDocument(s: Server.Server, app: AppSession.Session, now: nat, token: string,
                         text: string, fields: Form100.Fields)
    requires !s.status.isRecording
    ensures var (s1, started) := Server.StartRecording(s, now);
      var a1 := AppSession.HandleStart(app, Deliver(started)).state;
      var (s2, replies) := ServedReplies(s1, token, Recorder.Returned(text), Recorder.Returned(fields));
      var a2 := AppSession.HandleStop(a1, replies);
      var filled := Form100.Fill(Form100.Template(), fields);
      var loaded := DocumentEditor.Load(DocumentEditor.Initial(), replies.form, replies.transcript).state;
      && a1.isRecording
      && a2.state.showDocument && !a2.state.processingTranscription && !a2.state.isRecording
      && a2.state.formData == Some(filled)
      && a2.state.transcription == text
      && a2.calls == [StopCall, ProcessCall(Some(Recorder.RecordingName(token))), GetFormCall, GetTranscriptionCall]
      && !s2.status.isRecording
      && DocumentEditor.Render(loaded).FormView?
      && loaded.formData == Some(filled)
      && Form100.ReadSlots(loaded.formData.value, Form100.ContentPart) == Some(fields)
  {
    var (s1, started) := Server.StartRecording(s, now);
    var a1 := AppSession.HandleStart(app, Deliver(started)).state;
    var filled := Form100.Fill(Form100.Template(), fields);
    ServerAnswersStop(s1, token, text, fields);
    var (s2, replies) := ServedReplies(s1, token, Recorder.Returned(text), Recorder.Returned(fields));
    AppSession.StopSucceeds(a1, Some(Recorder.RecordingName(token)), Filled(filled), filled, TranscriptBody(Some(text)));
    DocumentEditor.LoadThenRender(DocumentEditor.Initial(), replies.form, replies.transcript);
    Form100.FillTemplateRoundTrip(fields);
  }

  /** A recording server with both services answering serves every call of the stop handler. */
  lemma ServerAnswersStop(s: Server.Server, token: string, text: string, fields: Form100.Fields)
    requires s.status.isRecording
    ensures var (s2, replies) := ServedReplies(s, token, Recorder.Returned(text), Recorder.Returned(fields));
      var filled := Form100.Fill(Form100.Template(), fields);
      && replies == AppSession.StopReplies(
           Ok(StopAck(ProcessingStarted, Some(Recorder.RecordingName(token)))),
           Ok(Filled(filled)), Ok(filled), Ok(TranscriptBody(Some(text))))
      && !s2.status.isRecording
  {
  }

  /** A recording server whose transcription raises answers the stop, reports the failure
      as the process answer and keeps the form and transcript it had stored. */
  lemma ServerFailsTranscription(s: Server.Server, token: string, failure: string,
                                 extraction: Recorder.External<Form100.Fields>)
    requires s.status.isRecording
    ensures var (s2, replies) := ServedReplies(s, token, Recorder.Raised(failure), extraction);
      && replies.stop == Ok(StopAck(ProcessingStarted, Some(Recorder.RecordingName(token))))
      && replies.process == Ok(ProcessError(failure))
      && s2.store.form == s.store.form
      && s2.store.transcription == s.store.transcription
      && replies.form == Deliver(Server.GetForm(s2))
      && replies.transcript == Deliver(Server.GetTranscription(s2))
  {
  }

  /** The message axios gives a 404. */
  lemma NotFoundMessage<T>(r: Response<T>)
    requires r.ErrorStatus? && r.code == 404
    ensures Deliver(r) == Failed("Request failed with status code 404")
  {
    assert Decimal.ToDecimal(404) == "404";
  }

  /** The App does not look at the process answer: when transcription fails but an earlier
      form and transcript are on disk, the App still shows "Document generated successfully!"
      with the earlier form and transcript. */
  lemma FailedProcessShowsEarlierDocument(s: Server.Server, app: AppSession.Session, now: nat, token: string,
                                          failure: string, extraction: Recorder.External<Form100.Fields>)
    requires !s.status.isRecording
    requires s.store.form.Some? && s.store.transcription.Some?
    ensures var (s1, started) := Server.StartRecording(s, now);
      var a1 := AppSession.HandleStart(app, Deliver(started)).state;
      var (s2, replies) := ServedReplies(s1, token, Recorder.Raised(failure), extraction);
      var a2 := AppSession.HandleStop(a1, replies).state;
      && replies.process == Ok(ProcessError(failure))
      && a2.showDocument && a2.status == AppSession.DoneStatus
      && a2.formData == s.store.form
      && a2.transcription == s.store.transcription.value
  {
    var (s1, started) := Server.StartRecording(s, now);
    var a1 := AppSession.HandleStart(app, Deliver(started)).state;
    ServerFailsTranscription(s1, token, failure, extraction);
    AppSession.StopSucceeds(a1, Some(Recorder.RecordingName(token)), ProcessError(failure),
                            s.store.form.value, TranscriptBody(s.store.transcription));
  }

  /** A recording server whose extraction raises answers the stop, reports the failure as the
      process answer, has already written the new transcript, and keeps the form it had. */
  lemma ServerFailsExtraction(s: Server.Server, token: string, text: string, failure: string)
    requires s.status.isRecording
    ensures var (s2, replies) := ServedReplies(s, token, Recorder.Returned(text), Recorder.Raised(failure));
      && replies.stop == Ok(StopAck(ProcessingStarted, Some(Recorder.RecordingName(token))))
      && replies.process == Ok(ProcessError(failure))
      && s2.store.form == s.store.form
      && s2.store.transcription == Some(text)
      && replies.form == Deliver(Server.GetForm(s2))
      && replies.transcript == Ok(TranscriptBody(Some(text)))
  {
  }

  /** When extraction fails after transcription succeeded and an earlier form is on disk, the
      App reports success and shows the earlier form next to the new transcript. */
  lemma FailedExtractionMixesDocuments(s: Server.Server, app: AppSession.Session, now: nat, token: string,
                                       text: string, failure: string)
    requires !s.status.isRecording
    requires s.store.form.Some?
    ensures var (s1, started) := Server.StartRecording(s, now);
      var a1 := AppSession.HandleStart(app, Deliver(started)).state;
      var (s2, replies) := ServedReplies(s1, token, Recorder.Returned(text), Recorder.Raised(failure));
      var a2 := AppSession.HandleStop(a1, replies).state;
      && replies.process == Ok(ProcessError(failure))
      && a2.showDocument && a2.status == AppSession.DoneStatus
      && a2.formData == s.store.form
      && a2.transcription == text
  {
    var (s1, started) := Server.StartRecording(s, now);
    var a1 := AppSession.HandleStart(app, Deliver(started)).state;
    ServerFailsExtraction(s1, token, text, failure);
    AppSession.StopSucceeds(a1, Some(Recorder.RecordingName(token)), ProcessError(failure),
                            s.store.form.value, TranscriptBody(Some(text)));
  }

  /** When `filled_form100.json` does not exist, the same failure ends at get-form's 404,
      reported as "Error retrieving document: Request failed with status code 404". */
  lemma FailedProcessWithNothingStored(s: Server.Server, app: AppSession.Session, now: nat, token: string,
                                       failure: string, extraction: Recorder.External<Form100.Fields>)
    requires !s.status.isRecording
    requires !Recorder.Exists(s.store, Recorder.FormFile)
    ensures var (s1, started) := Server.StartRecording(s, now);
      var a1 := AppSession.HandleStart(app, Deliver(started)).state;
      var (s2, replies) := ServedReplies(s1, token, Recorder.Raised(failure), extraction);
      var a2 := AppSession.HandleStop(a1, replies).state;
      && !a2.showDocument && !a2.processingTranscription
      && a2.error == AppSession.RetrieveErrorPrefix + "Request failed with status code 404"
  {
    var (s1, started) := Server.StartRecording(s, now);
    var a1 := AppSession.HandleStart(app, Deliver(started)).state;
    ServerFailsTranscription(s1, token, failure, extraction);
    var (s2, replies) := ServedReplies(s1, token, Recorder.Raised(failure), extraction);
    NotFoundMessage(Server.GetForm(s2));
    AppSession.FetchFails(a1, replies);
  }

  /** A process call without a filename is refused before the recorder runs, and the client
      sees "Request failed with status code 400". */
  lemma MissingFilenameRejected(s: Server.Server, speech: Recorder.External<string>,
                                extraction: Recorder.External<Form100.Fields>)
    ensures Deliver(Server.ProcessRecording(s, None, speech, extraction).1) == Failed("Request failed with status code 400")
    ensures Deliver(Server.ProcessRecording(s, Some(""), speech, extraction).1) == Failed("Request failed with status code 400")
  {
  }

  /** The polling client ends recording without a stop call once the server reports that it
      is idle, for instance after another client stopped it. */
  lemma PollSeesServerStop(s: Server.Server, p: PollingSession.Session, token: string)
    requires p.isRecording && s.status.isRecording
    ensures var (s1, _) := Server.StopRecording(s, token);
      var r := PollingSession.PollTick(p, Deliver(Server.GetStatus(s1)));
      && !r.state.isRecording
      && r.calls == [StatusCall]
  {
  }

  /** The polling client's start button against any server: an idle server's
      `recording_started` and a recording server's `already_recording` both put the client
      in recording with its clock where it was, and the server is then recording. */
  lemma PollingStartReachesServer(s: Server.Server, p: PollingSession.Session, now: nat)
    ensures var (s1, started) := Server.StartRecording(s, now);
      var r := PollingSession.HandleStart(p, Deliver(started));
      && s1.status.isRecording
      && r.state == p.(isRecording := true)
      && r.calls == [StartCall]
  {
  }

  /** While the server keeps recording, a poll leaves the polling client recording. */
  lemma PollWhileServerRecords(s: Server.Server, p: PollingSession.Session)
    requires p.isRecording && s.status.isRecording
    ensures PollingSession.PollTick(p, Deliver(Server.GetStatus(s))).state.isRecording
  {
  }

  /** An edit survives "sign and save" and a reload: after editing section `i` and saving, the
      server acknowledges the save, the editor moves on to the history page once that answer
      arrives, and a freshly loaded editor shows the edited text in section `i` and what it
      showed before everywhere else. */
  lemma EditSaveReload(s: Server.Server, e: DocumentEditor.Editor, i: int, c: string, j: int,
                       reply: Reply<string>, transcript: Reply<TranscriptBody>)
    requires DocumentEditor.Render(e).FormView?
    requires 0 <= i < |e.formData.value.sections|
    ensures var edited := DocumentEditor.ContentChange(e, i, c);
      var finished := DocumentEditor.HandleFinish(edited, reply);
      var (s1, response) := Server.SaveForm(s, finished.calls[0].form);
      var reloaded := DocumentEditor.Load(DocumentEditor.Initial(), Deliver(Server.GetForm(s1)), transcript).state;
      && response == Success(FormSaved)
      && (reply == Deliver(response) ==> finished.state.navigatedTo == Some(DocumentEditor.HistoryPath))
      && DocumentEditor.SectionValue(reloaded, i) == Some(c)
      && (j != i ==> DocumentEditor.SectionValue(reloaded, j) == DocumentEditor.SectionValue(e, j))
      && SameShape(e.formData.value, reloaded.formData.value)
  {
  }
}

=== FILE: form.dfy ===
/** The form tree exchanged between the server and the editor: the `FormData`,
    `FormSection` and `FormSubsection` shapes of DocumentForm.tsx, which are also
    the JSON objects recorder.py builds and fills. */
module Form {
  import opened Opt

  datatype Subsection = Subsection(title: string, content: string)

  /** A section either carries its own `content` or groups `subsections`; in the
      Form 100 template a grouped section has no `content` key at all, hence the Option. */
  datatype Section = Section(title: string, content: Option<string>, subsections: Option<seq<Subsection>>)

  datatype FormData = FormData(document: string, sections: seq<Section>)

  function SubsectionTitles(subs: seq<Subsection>): (r: seq<string>)
    ensures |r| == |subs|
    ensures forall j :: 0 <= j < |subs| ==> r[j] == subs[j].title
  {
    seq(|subs|, j requires 0 <= j < |subs| => subs[j].title)
  }

  /** Two sections agree on everything but the text a user or the filler may write. */
  predicate SameSectionShape(a: Section, b: Section) {
    && a.title == b.title
    && a.subsections.Some? == b.subsections.Some?
    && (a.subsections.Some? ==> SubsectionTitles(a.subsections.value) == SubsectionTitles(b.subsections.value))
  }

  /** Same document name, same sections in the same order with the same titles and the same subsection titles. */
  predicate SameShape(a: FormData, b: FormData) {
    && a.document == b.document
    && |a.sections| == |b.sections|
    && forall i :: 0 <= i < |a.sections| ==> SameSectionShape(a.sections[i], b.sections[i])
  }
}

=== FILE: form100.dfy ===
/** The Form 100 template and the map that copies the 25 extracted fields into it
    (`process_recording` and `analyze_medical_transcription` in backend/recorder.py).
    The language-model call is not modelled: its parsed result is the `Fields` record. */
module Form100 {
  import opened Opt
  import opened Form

  /** The structured extraction result, one string per field, in declaration order. */
  datatype Fields = Fields(
    documentPurpose: string,
    patientName: string,
    birthDate: string,
    gender: string,
    personalId: string,
    address: string,
    medicalInstitution: string,
    visitDate: string,
    primaryDiagnosis: string,
    additionalInfo: string,
    finalDiagnosis: string,
    treatmentUsed: string,
    patientSymptoms: string,
    medications: string,
    therapyProcedures: string,
    dietaryRecommendations: string,
    physicalActivity: string,
    additionalTests: string,
    pastDiseases: string,
    allergies: string,
    familyHistory: string,
    riskAssessment: string,
    doctorName: string,
    doctorSignature: string,
    additionalNotes: string)

  const FieldCount := 25

  const DocumentName := "ფორმა 100 - განახლებული"

  // Top-level titles
  const PurposeTitle := "გაცემის მიზანი"
  const PatientNameTitle := "პაციენტის სრული სახელი"
  const BirthDateTitle := "დაბადების თარიღი"
  const GenderTitle := "სქესი (მამრობითი / მდედრობითი)"
  const PersonalIdTitle := "პირადი საიდენტიფიკაციო ნომერი"
  const AddressTitle := "მისამართი"
  const InstitutionTitle := "სამკურნალო დაწესებულების სახელი"
  const VisitDateTitle := "სამედიცინო ვიზიტის თარიღი"
  const DiagnosisTitle := "დიაგნოზი"
  const SymptomsTitle := "პაციენტის სიმპტომები"
  const TreatmentTitle := "მკურნალობის რეკომენდაციები"
  const HistoryTitle := "სამედიცინო ისტორია"
  const RiskTitle := "რისკის შეფასება და პროფილაქტიკური ზომები"
  const DoctorNameTitle := "ექიმის სრული სახელი"
  const SignatureTitle := "ექიმის ხელმოწერა"
  const NotesTitle := "დამატებითი შენიშვნები"

  // Subsection titles under DiagnosisTitle
  const PrimaryDiagnosisTitle := "ა) საწყისი დიაგნოზი"
  const AdditionalInfoTitle := "ბ) დამატებითი ინფორმაცია"
  const FinalDiagnosisTitle := "გ) საბოლოო დიაგნოზი"
  const TreatmentUsedTitle := "დ) ჩატარებული მკურნალობა"

  // Subsection titles under TreatmentTitle
  const MedicationsTitle := "ა) მედიკამენტები"
  const ProceduresTitle := "ბ) თერაპიული პროცედურები"
  const DietTitle := "გ) დიეტური რეკომენდაციები"
  const ActivityTitle := "დ) ფიზიკური აქტივობის რეკომენდაციები"
  const TestsTitle := "ე) დამატებითი საჭირო გამოკვლევები"

  // Subsection titles under HistoryTitle
  const PastDiseasesTitle := "ა) წარსულში გადატანილი დაავადებები"
  const AllergiesTitle := "ბ) ალერგიები"
  const FamilyHistoryTitle := "გ) ოჯახის სამედიცინო ისტორია"

  function Plain(title: string): Section {
    Section(title, Some(""), None)
  }

  function Blank(title: string): Subsection {
    Subsection(title, "")
  }

  /** The blank Form 100 built on every processing run. */
  function Template(): FormData {
    FormData(DocumentName, [
      Plain(PurposeTitle),
      Plain(PatientNameTitle),
      Plain(BirthDateTitle),
      Plain(GenderTitle),
      Plain(PersonalIdTitle),
      Plain(AddressTitle),
      Plain(InstitutionTitle),
      Plain(VisitDateTitle),
      Section(DiagnosisTitle, None, Some([
        Blank(PrimaryDiagnosisTitle), Blank(AdditionalInfoTitle),
        Blank(FinalDiagnosisTitle), Blank(TreatmentUsedTitle)])),
      Plain(SymptomsTitle),
      Section(TreatmentTitle, None, Some([
        Blank(MedicationsTitle), Blank(ProceduresTitle), Blank(DietTitle),
        Blank(ActivityTitle), Blank(TestsTitle)])),
      Section(HistoryTitle, None, Some([
        Blank(PastDiseasesTitle), Blank(AllergiesTitle), Blank(FamilyHistoryTitle)])),
      Plain(RiskTitle),
      Plain(DoctorNameTitle),
      Plain(SignatureTitle),
      Plain(NotesTitle)
    ])
  }

  /** The field a plain section of this title receives, if any. */
  function PlainValue(title: string, f: Fields): Option<string> {
    if title == PurposeTitle then Some(f.documentPurpose)
    else if title == PatientNameTitle then Some(f.patientName)
    else if title == BirthDateTitle then Some(f.birthDate)
    else if title == GenderTitle then Some(f.gender)
    else if title == PersonalIdTitle then Some(f.personalId)
    else if title == AddressTitle then Some(f.address)
    else if title == InstitutionTitle then Some(f.medicalInstitution)
    else if title == VisitDateTitle then Some(f.visitDate)
    else if title == SymptomsTitle then Some(f.patientSymptoms)
    else if title == RiskTitle then Some(f.riskAssessment)
    else if title == DoctorNameTitle then Some(f.doctorName)
    else if title == SignatureTitle then Some(f.doctorSignature)
    else if title == NotesTitle then Some(f.additionalNotes)
    else None
  }

  /** The three sections whose subsections are filled one by one. */
  datatype Group = Diagnosis | Treatment | History

  function GroupOf(title: string): Option<Group> {
    if title == DiagnosisTitle then Some(Diagnosis)
    else if title == TreatmentTitle then Some(Treatment)
    else if title == HistoryTitle then Some(History)
    else None
  }

  /** The field a subsection of this title receives inside the given group, if any. */
  function SubsectionValue(g: Group, title: string, f: Fields): Option<string> {
    match g
    case Diagnosis =>
      if title == PrimaryDiagnosisTitle then Some(f.primaryDiagnosis)
      else if title == AdditionalInfoTitle then Some(f.additionalInfo)
      else if title == FinalDiagnosisTitle then Some(f.finalDiagnosis)
      else if title == TreatmentUsedTitle then Some(f.treatmentUsed)
      else None
    case Treatment =>
      if title == MedicationsTitle then Some(f.medications)
      else if title == ProceduresTitle then Some(f.therapyProcedures)
      else if title == DietTitle then Some(f.dietaryRecommendations)
      else if title == ActivityTitle then Some(f.physicalActivity)
      else if title == TestsTitle then Some(f.additionalTests)
      else None
    case History =>
      if title == PastDiseasesTitle then Some(f.pastDiseases)
      else if title == AllergiesTitle then Some(f.allergies)
      else if title == FamilyHistoryTitle then Some(f.familyHistory)
      else None
  }

  /** One subsection of a grouped section: written when its title matches, otherwise untouched. */
  function FillSubsection(g: Group, sub: Subsection, f: Fields): (r: Subsection)
    ensures r.title == sub.title
    ensures SubsectionValue(g, sub.title, f).None? ==> r == sub
    ensures SubsectionValue(g, sub.title, f).Some? ==> r.content == SubsectionValue(g, sub.title, f).value
  {
    match SubsectionValue(g, sub.title, f)
    case Some(v) => sub.(content := v)
    case None => sub
  }

  function FillSubsections(g: Group, subs: seq<Subsection>, f: Fields): (r: seq<Subsection>)
    ensures |r| == |subs|
    ensures forall j :: 0 <= j < |subs| ==> r[j] == FillSubsection(g, subs[j], f)
  {
    seq(|subs|, j requires 0 <= j < |subs| => FillSubsection(g, subs[j], f))
  }

  /** One step of the title chain: a plain title gets its field as `content`; a group title
      with subsections gets its subsections filled and no `content`; anything else is left alone. */
  function FillSection(s: Section, f: Fields): (r: Section)
    ensures SameSectionShape(s, r)
    ensures PlainValue(s.title, f).Some? ==> r == s.(content := PlainValue(s.title, f))
    ensures PlainValue(s.title, f).None? ==> r.content == s.content
    ensures PlainValue(s.title, f).None? && (GroupOf(s.title).None? || s.subsections.None?) ==> r == s
    ensures PlainValue(s.title, f).None? && GroupOf(s.title).Some? && s.subsections.Some? ==>
      r == s.(subsections := Some(FillSubsections(GroupOf(s.title).value, s.subsections.value, f)))
  {
    match PlainValue(s.title, f)
    case Some(v) => s.(content := Some(v))
    case None =>
      match GroupOf(s.title)
      case Some(g) =>
        (match s.subsections
         case Some(subs) => s.(subsections := Some(FillSubsections(g, subs, f)))
         case None => s)
      case None => s
  }

  /** `analyze_medical_transcription` after the model call: every section through the chain. */
  function Fill(form: FormData, f: Fields): (r: FormData)
    ensures SameShape(form, r)
    ensures forall i :: 0 <= i < |form.sections| ==> r.sections[i] == FillSection(form.sections[i], f)
  {
    form.(sections := seq(|form.sections|, i requires 0 <= i < |form.sections| => FillSection(form.sections[i], f)))
  }

  /** Whether a slot is read for its heading or for its text. */
  datatype Part = TitlePart | ContentPart

  function SectionText(s: Section, part: Part): string {
    if part == TitlePart then s.title else s.content.GetOr("")
  }

  function SubsectionText(sub: Subsection, part: Part): string {
    if part == TitlePart then sub.title else sub.content
  }

  /** A form laid out like the template: 16 sections, with 4, 5 and 3 subsections at
      positions 8, 10 and 11. */
  predicate HasTemplateLayout(form: FormData) {
    && |form.sections| == 16
    && form.sections[8].subsections.Some? && |form.sections[8].subsections.value| == 4
    && form.sections[10].subsections.Some? && |form.sections[10].subsections.value| == 5
    && form.sections[11].subsections.Some? && |form.sections[11].subsections.value| == 3
  }

  /** Reads the 25 text slots of a template-shaped form, in document order, into the
      record of the same order (`Fields`); absent for any other layout. */
  function ReadSlots(form: FormData, part: Part): Option<Fields> {
    if !HasTemplateLayout(form) then None
    else
      var s := form.sections;
      var d := s[8].subsections.value;
      var t := s[10].subsections.value;
      var h := s[11].subsections.value;
      Some(Fields(
        SectionText(s[0], part), SectionText(s[1], part), SectionText(s[2], part),
        SectionText(s[3], part), SectionText(s[4], part), SectionText(s[5], part),
        SectionText(s[6], part), SectionText(s[7], part),
        SubsectionText(d[0], part), SubsectionText(d[1], part), SubsectionText(d[2], part),
        SubsectionText(d[3], part),
        SectionText(s[9], part),
        SubsectionText(t[0], part), SubsectionText(t[1], part), SubsectionText(t[2], part),
        SubsectionText(t[3], part), SubsectionText(t[4], part),
        SubsectionText(h[0], part), SubsectionText(h[1], part), SubsectionText(h[2], part),
        SectionText(s[12], part), SectionText(s[13], part), SectionText(s[14], part),
        SectionText(s[15], part)))
  }

  /** The heading of the slot each extracted field belongs in (the Georgian half of each
      field description in `Form100Content`). */
  const FieldTitles := Fields(
    PurposeTitle, PatientNameTitle, BirthDateTitle, GenderTitle, PersonalIdTitle, AddressTitle,
    InstitutionTitle, VisitDateTitle, PrimaryDiagnosisTitle, AdditionalInfoTitle,
    FinalDiagnosisTitle, TreatmentUsedTitle, SymptomsTitle, MedicationsTitle, ProceduresTitle,
    DietTitle, ActivityTitle, TestsTitle, PastDiseasesTitle, AllergiesTitle, FamilyHistoryTitle,
    RiskTitle, DoctorNameTitle, SignatureTitle, NotesTitle)

  /** Number of text slots: one per plain section, one per subsection of a grouped one. */
  function SlotCount(sections: seq<Section>): nat {
    if |sections| == 0 then 0
    else (match sections[0].subsections
          case Some(subs) => |subs|
          case None => 1) + SlotCount(sections[1..])
  }

  /** The template has 16 sections, exactly three of which group subsections (4, 5 and 3 of them). */
  lemma TemplateLayout()
    ensures HasTemplateLayout(Template())
    ensures forall i :: 0 <= i < 16 && i != 8 && i != 10 && i != 11 ==> Template().sections[i].subsections.None?
  {
  }

  /** 25 text slots in all, one per extracted field. */
  lemma TemplateSlotCount()
    ensures SlotCount(Template().sections) == FieldCount
  {
    TemplateLayout();
    LayoutSlotCount(Template().sections);
  }

  /** Any section list laid out like the template has 25 text slots. */
  lemma LayoutSlotCount(t: seq<Section>)
    requires |t| == 16
    requires t[8].subsections.Some? && |t[8].subsections.value| == 4
    requires t[10].subsections.Some? && |t[10].subsections.value| == 5
    requires t[11].subsections.Some? && |t[11].subsections.value| == 3
    requires forall i :: 0 <= i < 16 && i != 8 && i != 10 && i != 11 ==> t[i].subsections.None?
    ensures SlotCount(t) == FieldCount
  {
    SlotCountSuffix(t, 0);
    assert t[0..] == t;
  }

  /** Every slot of the template is blank and headed by the title of the field it is meant for. */
  lemma TemplateHeadings()
    ensures ReadSlots(Template(), TitlePart) == Some(FieldTitles)
    ensures ReadSlots(Template(), ContentPart) == Some(Fields("", "", "", "", "", "", "", "", "", "", "", "", "", "", "", "", "", "", "", "", "", "", "", "", ""))
  {
  }

  /** Slot count of a suffix of any section list laid out like the template, in closed form. */
  lemma {:induction false} SlotCountSuffix(t: seq<Section>, k: nat)
    requires |t| == 16 && k <= 16
    requires t[8].subsections.Some? && |t[8].subsections.value| == 4
    requires t[10].subsections.Some? && |t[10].subsections.value| == 5
    requires t[11].subsections.Some? && |t[11].subsections.value| == 3
    requires forall i :: 0 <= i < 16 && i != 8 && i != 10 && i != 11 ==> t[i].subsections.None?
    ensures SlotCount(t[k..]) == if k <= 8 then 25 - k else if k == 9 then 13 else if k == 10 then 12 else if k == 11 then 7 else 16 - k
    decreases 16 - k
  {
    if k < 16 {
      assert t[k..][0] == t[k];
      assert t[k..][1..] == t[k + 1..];
      SlotCountSuffix(t, k + 1);
    }
  }

  /** Each plain heading of the template selects its own field in the title chain. */
  lemma LeadingPlainValues(f: Fields)
    ensures PlainValue(PurposeTitle, f) == Some(f.documentPurpose)
    ensures PlainValue(PatientNameTitle, f) == Some(f.patientName)
    ensures PlainValue(BirthDateTitle, f) == Some(f.birthDate)
    ensures PlainValue(GenderTitle, f) == Some(f.gender)
    ensures PlainValue(PersonalIdTitle, f) == Some(f.personalId)
    ensures PlainValue(AddressTitle, f) == Some(f.address)
    ensures PlainValue(InstitutionTitle, f) == Some(f.medicalInstitution)
    ensures PlainValue(VisitDateTitle, f) == Some(f.visitDate)
  {
  }

  lemma TrailingPlainValues(f: Fields)
    ensures PlainValue(SymptomsTitle, f) == Some(f.patientSymptoms)
    ensures PlainValue(RiskTitle, f) == Some(f.riskAssessment)
    ensures PlainValue(DoctorNameTitle, f) == Some(f.doctorName)
    ensures PlainValue(SignatureTitle, f) == Some(f.doctorSignature)
    ensures PlainValue(NotesTitle, f) == Some(f.additionalNotes)
  {
  }

  /** The first four plain sections of the filled template. */
  lemma FilledFirstSections(f: Fields)
    ensures Fill(Template(), f).sections[0] == Section(PurposeTitle, Some(f.documentPurpose), None)
    ensures Fill(Template(), f).sections[1] == Section(PatientNameTitle, Some(f.patientName), None)
    ensures Fill(Template(), f).sections[2] == Section(BirthDateTitle, Some(f.birthDate), None)
    ensures Fill(Template(), f).sections[3] == Section(GenderTitle, Some(f.gender), None)
  {
    LeadingPlainValues(f);
    var t := Template().sections;
    var r := Fill(Template(), f).sections;
    assert t[0] == Plain(PurposeTitle) && r[0] == FillSection(t[0], f);
    assert t[1] == Plain(PatientNameTitle) && r[1] == FillSection(t[1], f);
    assert t[2] == Plain(BirthDateTitle) && r[2] == FillSection(t[2], f);
    assert t[3] == Plain(GenderTitle) && r[3] == FillSection(t[3], f);
  }

  /** The next four plain sections, up to the visit date. */
  lemma FilledVisitSections(f: Fields)
    ensures Fill(Template(), f).sections[4] == Section(PersonalIdTitle, Some(f.personalId), None)
    ensures Fill(Template(), f).sections[5] == Section(AddressTitle, Some(f.address), None)
    ensures Fill(Template(), f).sections[6] == Section(InstitutionTitle, Some(f.medicalInstitution), None)
    ensures Fill(Template(), f).sections[7] == Section(VisitDateTitle, Some(f.visitDate), None)
  {
    LeadingPlainValues(f);
    var t := Template().sections;
    var r := Fill(Template(), f).sections;
    assert t[4] == Plain(PersonalIdTitle) && r[4] == FillSection(t[4], f);
    assert t[5] == Plain(AddressTitle) && r[5] == FillSection(t[5], f);
    assert t[6] == Plain(InstitutionTitle) && r[6] == FillSection(t[6], f);
    assert t[7] == Plain(VisitDateTitle) && r[7] == FillSection(t[7], f);
  }

  /** The plain sections after the grouped ones. */
  lemma FilledTrailingSections(f: Fields)
    ensures Fill(Template(), f).sections[9] == Section(SymptomsTitle, Some(f.patientSymptoms), None)
    ensures Fill(Template(), f).sections[12] == Section(RiskTitle, Some(f.riskAssessment), None)
    ensures Fill(Template(), f).sections[13] == Section(DoctorNameTitle, Some(f.doctorName), None)
    ensures Fill(Template(), f).sections[14] == Section(SignatureTitle, Some(f.doctorSignature), None)
    ensures Fill(Template(), f).sections[15] == Section(NotesTitle, Some(f.additionalNotes), None)
  {
    TrailingPlainValues(f);
    var t := Template().sections;
    var r := Fill(Template(), f).sections;
    assert t[9] == Plain(SymptomsTitle) && r[9] == FillSection(t[9], f);
    assert t[12] == Plain(RiskTitle) && r[12] == FillSection(t[12], f);
    assert t[13] == Plain(DoctorNameTitle) && r[13] == FillSection(t[13], f);
    assert t[14] == Plain(SignatureTitle) && r[14] == FillSection(t[14], f);
    assert t[15] == Plain(NotesTitle) && r[15] == FillSection(t[15], f);
  }

  /** The diagnosis group of the filled template: no top-level content, its four subsections filled in order. */
  lemma FilledDiagnosisSection(f: Fields)
    ensures Fill(Template(), f).sections[8] == Section(DiagnosisTitle, None, Some([
      Subsection(PrimaryDiagnosisTitle, f.primaryDiagnosis), Subsection(AdditionalInfoTitle, f.additionalInfo),
      Subsection(FinalDiagnosisTitle, f.finalDiagnosis), Subsection(TreatmentUsedTitle, f.treatmentUsed)]))
  {
    var d := FillSubsections(Diagnosis, Template().sections[8].subsections.value, f);
    assert d[0] == Subsection(PrimaryDiagnosisTitle, f.primaryDiagnosis);
    assert d[1] == Subsection(AdditionalInfoTitle, f.additionalInfo);
    assert d[2] == Subsection(FinalDiagnosisTitle, f.finalDiagnosis);
    assert d[3] == Subsection(TreatmentUsedTitle, f.treatmentUsed);
    assert d == [Subsection(PrimaryDiagnosisTitle, f.primaryDiagnosis), Subsection(AdditionalInfoTitle, f.additionalInfo),
      Subsection(FinalDiagnosisTitle, f.finalDiagnosis), Subsection(TreatmentUsedTitle, f.treatmentUsed)];
    assert FillSection(Template().sections[8], f) == Section(DiagnosisTitle, None, Some(d));
  }

  /** The treatment-recommendations group: the five fields from `medications` to `additionalTests`. */
  lemma FilledTreatmentSection(f: Fields)
    ensures Fill(Template(), f).sections[10] == Section(TreatmentTitle, None, Some([
      Subsection(MedicationsTitle, f.medications), Subsection(ProceduresTitle, f.therapyProcedures),
      Subsection(DietTitle, f.dietaryRecommendations), Subsection(ActivityTitle, f.physicalActivity),
      Subsection(TestsTitle, f.additionalTests)]))
  {
    var m := FillSubsections(Treatment, Template().sections[10].subsections.value, f);
    assert m[0] == Subsection(MedicationsTitle, f.medications);
    assert m[1] == Subsection(ProceduresTitle, f.therapyProcedures);
    assert m[2] == Subsection(DietTitle, f.dietaryRecommendations);
    assert m[3] == Subsection(ActivityTitle, f.physicalActivity);
    assert m[4] == Subsection(TestsTitle, f.additionalTests);
    assert m == [Subsection(MedicationsTitle, f.medications), Subsection(ProceduresTitle, f.therapyProcedures),
      Subsection(DietTitle, f.dietaryRecommendations), Subsection(ActivityTitle, f.physicalActivity),
      Subsection(TestsTitle, f.additionalTests)];
    assert FillSection(Template().sections[10], f) == Section(TreatmentTitle, None, Some(m));
  }

  /** The medical-history group: past diseases, allergies, family history. */
  lemma FilledHistorySection(f: Fields)
    ensures Fill(Template(), f).sections[11] == Section(HistoryTitle, None, Some([
      Subsection(PastDiseasesTitle, f.pastDiseases), Subsection(AllergiesTitle, f.allergies),
      Subsection(FamilyHistoryTitle, f.familyHistory)]))
  {
    var h := FillSubsections(History, Template().sections[11].subsections.value, f);
    assert h[0] == Subsection(PastDiseasesTitle, f.pastDiseases);
    assert h[1] == Subsection(AllergiesTitle, f.allergies);
    assert h[2] == Subsection(FamilyHistoryTitle, f.familyHistory);
    assert h == [Subsection(PastDiseasesTitle, f.pastDiseases), Subsection(AllergiesTitle, f.allergies),
      Subsection(FamilyHistoryTitle, f.familyHistory)];
    assert FillSection(Template().sections[11], f) == Section(HistoryTitle, None, Some(h));
  }

  /** Filling the template puts every extracted field into its own slot: reading the slot
      contents back gives exactly the extraction result, and every heading stays in place. */
  lemma FillTemplateRoundTrip(f: Fields)
    ensures HasTemplateLayout(Fill(Template(), f))
    ensures ReadSlots(Fill(Template(), f), ContentPart) == Some(f)
    ensures ReadSlots(Fill(Template(), f), TitlePart) == Some(FieldTitles)
  {
    FilledFirstSections(f);
    FilledVisitSections(f);
    FilledDiagnosisSection(f);
    FilledTreatmentSection(f);
    FilledHistorySection(f);
    FilledTrailingSections(f);
    assert |Fill(Template(), f).sections| == 16;
  }
}

=== FILE: option.dfy ===
/** The optional value used wherever a JSON field or a JavaScript value may be absent. */
module Opt {

  datatype Option<+T> = None | Some(value: T) {

    /** The value, or `default` when absent (JavaScript's `x || default` on strings that are present and non-empty). */
    function GetOr(default: T): T {
      match this
      case Some(v) => v
      case None => default
    }
  }
}

=== FILE: polling_session.dfy ===
/** The polling variant of the recording session in frontend/src/components/Recording.tsx:
    a ceiling-free tick that also asks the server whether it is still recording, start and
    stop handlers, and navigation to the processed document. */
module PollingSession {
  import opened Opt
  import opened Api

  /** The `useState` hooks, plus the last `navigate` target. `recordingFilename` starts as ''
      and can become undefined when a stop answer lacks the field. */
  datatype Session = Session(
    isRecording: bool,
    recordingTime: nat,
    processingTranscription: bool,
    recordingFilename: Option<string>,
    navigatedTo: Option<string>)

  /** The hooks' initial values: idle, the clock at 0, no filename yet ('') and no navigation. */
  function Initial(): (s: Session)
    ensures !s.isRecording && s.recordingTime == 0 && s.navigatedTo.None?
    ensures s.recordingFilename == Some("")
  {
    Session(false, 0, false, Some(""), None)
  }

  /** The route for a processed document: the template literal prints a missing
      `document` field as "undefined". */
  function DocumentPath(outcome: ProcessOutcome): (path: string)
    ensures outcome.Filled? ==> path == "/document/" + outcome.form.document
    ensures outcome.ProcessError? ==> path == "/document/undefined"
  {
    "/document/" + DocumentField(outcome).GetOr("undefined")
  }

  /** One firing of the interval (only while recording): the clock advances by one, a status
      call goes out, and a reply saying the server is no longer recording ends recording here
      without a stop call. A failed poll changes nothing more. */
  function PollTick(s: Session, poll: Reply<StatusReport>): (r: Step<Session>)
    ensures !s.isRecording ==> r == Step(s, [])
    ensures s.isRecording ==>
      && r.calls == [StatusCall]
      && r.state.recordingTime == s.recordingTime + 1
      && (r.state.isRecording <==> !(poll.Ok? && !poll.body.isRecording))
      && r.state.processingTranscription == s.processingTranscription
      && r.state.recordingFilename == s.recordingFilename
      && r.state.navigatedTo == s.navigatedTo
  {
    if !s.isRecording then Step(s, [])
    else
      var s1 := s.(recordingTime := s.recordingTime + 1);
      match poll
      case Ok(report) =>
        if !report.isRecording then Step(s1.(isRecording := false), [StatusCall]) else Step(s1, [StatusCall])
      case Failed(_) => Step(s1, [StatusCall])
  }

  /** `handleStartRecording`: enters recording on `recording_started` or `already_recording`;
      anything else, including a failed call, changes nothing. The clock is not reset. */
  function HandleStart(s: Session, reply: Reply<StartAck>): (r: Step<Session>)
    ensures r.calls == [StartCall]
    ensures reply.Ok? && reply.body.status in {RecordingStarted, AlreadyRecording} ==> r.state == s.(isRecording := true)
    ensures !(reply.Ok? && reply.body.status in {RecordingStarted, AlreadyRecording}) ==> r.state == s
  {
    match reply
    case Ok(ack) =>
      if ack.status == RecordingStarted || ack.status == AlreadyRecording
      then Step(s.(isRecording := true), [StartCall])
      else Step(s, [StartCall])
    case Failed(_) => Step(s, [StartCall])
  }

  /** `handleStopRecording`, unguarded: recording ends and the processing flag is raised before
      any answer; on `processing_started` the returned filename is stored and sent to process,
      and a processed answer navigates to its document. Any failure lowers the flag. */
  function HandleStop(s: Session, stop: Reply<StopAck>, process: Reply<ProcessOutcome>): (r: Step<Session>)
    ensures !r.state.isRecording
    ensures r.state.recordingTime == s.recordingTime
    ensures |r.calls| >= 1 && r.calls[0] == StopCall
    ensures stop.Failed? ==> r == Step(s.(isRecording := false, processingTranscription := false), [StopCall])
    ensures stop.Ok? && stop.body.status != ProcessingStarted ==>
      r == Step(s.(isRecording := false, processingTranscription := true), [StopCall])
    ensures stop.Ok? && stop.body.status == ProcessingStarted ==>
      && r.calls == [StopCall, ProcessCall(stop.body.filename)]
      && r.state.recordingFilename == stop.body.filename
      && !r.state.processingTranscription
      && (process.Ok? ==> r.state.navigatedTo == Some(DocumentPath(process.body)))
      && (process.Failed? ==> r.state.navigatedTo == s.navigatedTo)
  {
    var s1 := s.(isRecording := false, processingTranscription := true);
    match stop
    case Failed(_) => Step(s1.(processingTranscription := false), [StopCall])
    case Ok(ack) =>
      if ack.status != ProcessingStarted then Step(s1, [StopCall])
      else
        var s2 := s1.(recordingFilename := ack.filename);
        var issued := [StopCall, ProcessCall(ack.filename)];
        match process
        case Failed(_) => Step(s2.(processingTranscription := false), issued)
        case Ok(outcome) =>
          Step(s2.(processingTranscription := false, navigatedTo := Some(DocumentPath(outcome))), issued)
  }

  /** `n` ticks whose polls all succeed and report the server still recording. */
  function RunTicks(s: Session, n: nat, elapsed: nat): Step<Session>
    decreases n
  {
    if n == 0 then Step(s, [])
    else
      var first := PollTick(s, Ok(StatusReport(true, elapsed)));
      var rest := RunTicks(first.state, n - 1, elapsed);
      Step(rest.state, first.calls + rest.calls)
  }

  /** Without a ceiling: n ticks while the server keeps recording add exactly n seconds, keep
      recording on, and issue exactly n status calls, so n status calls and no stop call. */
  lemma {:induction false} NoCeiling(s: Session, n: nat, elapsed: nat)
    requires s.isRecording
    ensures var r := RunTicks(s, n, elapsed);
      && r.state.recordingTime == s.recordingTime + n
      && r.state.isRecording
      && r.calls == Repeat(StatusCall, n)
      && Count(r.calls, StatusCall) == n
      && StopCall !in r.calls
    decreases n
  {
    if n > 0 {
      var s1 := s.(recordingTime := s.recordingTime + 1);
      StillRecordingTick(s, elapsed);
      NoCeiling(s1, n - 1, elapsed);
    }
    CountRepeat(StatusCall, n);
  }

  /** A fresh page whose start is accepted counts every poll the server answers "still
      recording": after n of them the clock reads n, with n status calls and no stop call. */
  lemma FreshStartCountsPolls(ack: StartAck, n: nat, elapsed: nat)
    requires ack.status in {RecordingStarted, AlreadyRecording}
    ensures var started := HandleStart(Initial(), Ok(ack)).state;
      var r := RunTicks(started, n, elapsed);
      && r.state.recordingTime == n && r.state.isRecording
      && r.calls == Repeat(StatusCall, n)
      && StopCall !in r.calls
  {
    NoCeiling(HandleStart(Initial(), Ok(ack)).state, n, elapsed);
  }

  /** A poll answered "still recording" only advances the clock and issues the status call. */
  lemma StillRecordingTick(s: Session, elapsed: nat)
    requires s.isRecording
    ensures PollTick(s, Ok(StatusReport(true, elapsed))) == Step(s.(recordingTime := s.recordingTime + 1), [StatusCall])
  {
  }

  /** Server-side termination: a poll reporting the server idle ends recording here; the
      following ticks do nothing, so no stop call is ever issued on this path. */
  lemma ServerStopEndsRecording(s: Session, elapsed: nat, later: Reply<StatusReport>)
    requires s.isRecording
    ensures var r := PollTick(s, Ok(StatusReport(false, elapsed)));
      && !r.state.isRecording
      && r.calls == [StatusCall]
      && r.state.processingTranscription == s.processingTranscription
      && PollTick(r.state, later) == Step(r.state, [])
  {
  }

  /** A stop that reaches processing hands the process call the very filename it stored. */
  lemma StoredFilenameIsProcessed(s: Session, name: string, outcome: ProcessOutcome)
    ensures var r := HandleStop(s, Ok(StopAck(ProcessingStarted, Some(name))), Ok(outcome));
      && r.state.recordingFilename == Some(name)
      && r.calls == [StopCall, ProcessCall(r.state.recordingFilename)]
      && r.state.navigatedTo == Some("/document/" + DocumentField(outcome).GetOr("undefined"))
      && !r.state.processingTranscription
  {
  }
}

=== FILE: recorder.dfy ===
/** The recorder of backend/recorder.py: its module-level flags, the files it writes,
    and `process_recording`. Audio capture, the WAV encoding, the uuid, the speech-to-text
    service and the language model are parameters: a chunk read (or a failed read), a
    fresh token, and the two services' results. */
module Recorder {
  import opened Opt
  import opened Form
  import Form100
  import opened Api

  type Chunk = seq<bv8>

  /** What the external services give back: a value, or an exception's text. */
  datatype External<T> = Returned(value: T) | Raised(message: string)

  /** The server's working directory, as far as the core reads and writes it: the WAV files
      by name (their frames), the names of every other file already there (the server's own
      files, whose contents the core never reads itself), `transcription.txt` and
      `filled_form100.json`. */
  datatype Store = Store(
    audio: map<string, seq<Chunk>>,
    other: set<string>,
    transcription: Option<string>,
    form: Option<FormData>)

  const TranscriptFile := "transcription.txt"
  const FormFile := "filled_form100.json"

  /** The two files the core writes are held by their contents, never as bare names: a
      directory that holds one of them has it in its slot. */
  predicate WellFormed(store: Store) {
    && TranscriptFile !in store.other && FormFile !in store.other
    && TranscriptFile !in store.audio && FormFile !in store.audio
  }

  /** The directory a server starts in: the names of the files already there besides the two
      output files, and the contents an earlier run left in those (None when absent). */
  function StartingStore(files: set<string>, transcription: Option<string>, form: Option<FormData>): (store: Store)
    requires TranscriptFile !in files && FormFile !in files
    ensures WellFormed(store)
    ensures Exists(store, TranscriptFile) <==> transcription.Some?
    ensures Exists(store, FormFile) <==> form.Some?
    ensures forall name :: name in files ==> Exists(store, name)
  {
    Store(map[], files, transcription, form)
  }

  /** In a well-formed store, an output file exists exactly when its slot holds contents. */
  lemma OutputFilesExistWhenWritten(store: Store)
    requires WellFormed(store)
    ensures Exists(store, TranscriptFile) <==> store.transcription.Some?
    ensures Exists(store, FormFile) <==> store.form.Some?
  {
  }

  /** `os.path.exists(name)`: a recording, another file of the directory, or one of the two
      output files once written. */
  predicate Exists(store: Store, name: string) {
    || name in store.audio
    || name in store.other
    || (name == TranscriptFile && store.transcription.Some?)
    || (name == FormFile && store.form.Some?)
  }

  /** The module globals `stream` (open or not), `frames`, `is_recording` and `current_filename`. */
  datatype Recorder = Recorder(streamOpen: bool, frames: seq<Chunk>, isRecording: bool, currentFilename: Option<string>)

  function Initial(): Recorder {
    Recorder(false, [], false, None)
  }

  /** `start_recording`: empties `frames`, opens the stream and raises `is_recording`. */
  function StartRecording(r: Recorder): (r': Recorder)
    ensures r'.frames == [] && r'.streamOpen && r'.isRecording
    ensures r'.currentFilename == r.currentFilename
  {
    r.(frames := [], streamOpen := true, isRecording := true)
  }

  /** `record_chunk`: appends the chunk read when a stream is open and recording is on;
      a failed read (None) or an idle recorder appends nothing and answers false. */
  function RecordChunk(r: Recorder, read: Option<Chunk>): (result: (Recorder, bool))
    ensures result.1 <==> r.streamOpen && r.isRecording && read.Some?
    ensures result.1 ==> result.0 == r.(frames := r.frames + [read.value])
    ensures !result.1 ==> result.0 == r
  {
    if r.streamOpen && r.isRecording then
      match read
      case Some(chunk) => (r.(frames := r.frames + [chunk]), true)
      case None => (r, false)
    else (r, false)
  }

  /** The name `stop_recording` gives the WAV file, around a fresh hex token; it never names
      one of the two output files. */
  function RecordingName(token: string): (name: string)
    ensures name != ""
    ensures name != TranscriptFile && name != FormFile
  {
    var name := "recording_" + token + ".wav";
    assert name[0] == 'r' && TranscriptFile[0] == 't' && FormFile[0] == 'f';
    name
  }

  /** `stop_recording`: lowers `is_recording`, closes the stream, writes the frames to a fresh
      WAV file, remembers its name as `current_filename` and returns it. */
  function StopRecording(r: Recorder, store: Store, token: string): (result: (Recorder, Store, string))
    ensures var (r', store', name) := result;
      && name == RecordingName(token)
      && !r'.isRecording && !r'.streamOpen
      && r'.currentFilename == Some(name)
      && r'.frames == r.frames
      && store'.audio == store.audio[name := r.frames]
      && store'.other == store.other
      && store'.transcription == store.transcription && store'.form == store.form
    ensures WellFormed(store) ==> WellFormed(result.1)
  {
    var name := RecordingName(token);
    (r.(isRecording := false, streamOpen := false, currentFilename := Some(name)),
     store.(audio := store.audio[name := r.frames]),
     name)
  }

  const FileNotFound := "Recording file not found"

  /** The file `process_recording` opens: the given name, or `current_filename` when none is given. */
  function ProcessTarget(r: Recorder, filename: Option<string>): Option<string> {
    if filename.None? then r.currentFilename else filename
  }

  /** The name to process is non-empty and names an existing file. */
  predicate Found(r: Recorder, store: Store, filename: Option<string>) {
    var name := ProcessTarget(r, filename);
    name.Some? && name.value != "" && Exists(store, name.value)
  }

  /** `process_recording`: falls back to `current_filename` when no name is given; answers
      "Recording file not found" for an empty name or a missing file; otherwise transcribes
      (writing `transcription.txt`), fills the Form 100 template from the extracted fields
      (writing `filled_form100.json`) and returns the filled form. A raised exception becomes
      `{"error": str(e)}` and leaves whatever was already written. */
  function ProcessRecording(r: Recorder, store: Store, filename: Option<string>,
                            speech: External<string>, extraction: External<Form100.Fields>): (result: (ProcessOutcome, Store))
    ensures !Found(r, store, filename) ==> result == (ProcessError(FileNotFound), store)
    ensures result.0.Filled? <==> Found(r, store, filename) && speech.Returned? && extraction.Returned?
    ensures result.0.Filled? ==>
      && result.0.form == Form100.Fill(Form100.Template(), extraction.value)
      && result.1 == store.(transcription := Some(speech.value), form := Some(result.0.form))
    ensures Found(r, store, filename) && speech.Raised? ==> result == (ProcessError(speech.message), store)
    ensures Found(r, store, filename) && speech.Returned? && extraction.Raised? ==>
      result == (ProcessError(extraction.message), store.(transcription := Some(speech.value)))
    ensures result.1.audio == store.audio && result.1.other == store.other
    ensures WellFormed(store) ==> WellFormed(result.1)
  {
    if !Found(r, store, filename) then
      (ProcessError(FileNotFound), store)
    else
      match speech
      case Raised(e) => (ProcessError(e), store)
      case Returned(text) =>
        var written := store.(transcription := Some(text));
        match extraction
        case Raised(e) => (ProcessError(e), written)
        case Returned(fields) =>
          var filled := Form100.Fill(Form100.Template(), fields);
          (Filled(filled), written.(form := Some(filled)))
  }

  /** An existing file is processed whatever it holds: a stored transcript or form, or any
      other file of the directory, goes to the speech service like a recording. */
  lemma AnyExistingFileIsProcessed(r: Recorder, store: Store, name: string, text: string, fields: Form100.Fields)
    requires name != "" && Exists(store, name)
    ensures ProcessRecording(r, store, Some(name), Returned(text), Returned(fields)).0
         == Filled(Form100.Fill(Form100.Template(), fields))
  {
  }

  /** Frames recorded between a start and a stop land, in order, in the file the stop names. */
  lemma RecordedFramesReachFile(r: Recorder, store: Store, chunks: seq<Chunk>, token: string)
    ensures var (r', store', name) := StopRecording(RecordAll(StartRecording(r), chunks), store, token);
      name in store'.audio && store'.audio[name] == chunks
  {
    RecordAllAppends(StartRecording(r), chunks);
  }

  /** Successive successful `record_chunk` calls. */
  function RecordAll(r: Recorder, chunks: seq<Chunk>): Recorder
    decreases |chunks|
  {
    if |chunks| == 0 then r else RecordAll(RecordChunk(r, Some(chunks[0])).0, chunks[1..])
  }

  lemma {:induction false} RecordAllAppends(r: Recorder, chunks: seq<Chunk>)
    requires r.streamOpen && r.isRecording
    ensures RecordAll(r, chunks) == r.(frames := r.frames + chunks)
    decreases |chunks|
  {
    if |chunks| == 0 {
      assert r.frames + chunks == r.frames;
    } else {
      var r1 := RecordChunk(r, Some(chunks[0])).0;
      RecordAllAppends(r1, chunks[1..]);
      assert r1.frames + chunks[1..] == r.frames + chunks;
    }
  }
}

=== FILE: server.dfy ===
/** The Flask endpoints of backend/app.py over the `recording_status` record, the recorder
    and the file store. The background recording thread and its wall-clock `elapsed_time`
    updates are not modelled: `elapsed_time` is whatever the state holds, and the start
    time is a clock reading passed in. */
module Server {
  import opened Opt
  import opened Form
  import opened Api
  import Form100
  import Recorder

  /** `recording_status`. */
  datatype RecordingStatus = RecordingStatus(isRecording: bool, startTime: Option<nat>, elapsedTime: nat)

  datatype Server = Server(status: RecordingStatus, recorder: Recorder.Recorder, store: Recorder.Store)

  /** A freshly started server in a directory holding `files` besides the two output files,
      and whatever `transcription.txt` and `filled_form100.json` an earlier run left there. */
  function Initial(files: set<string>, transcription: Option<string>, form: Option<FormData>): (s: Server)
    requires Recorder.TranscriptFile !in files && Recorder.FormFile !in files
    ensures Consistent(s) && !s.status.isRecording
    ensures s.store.transcription == transcription && s.store.form == form
  {
    Server(RecordingStatus(false, None, 0), Recorder.Initial(), Recorder.StartingStore(files, transcription, form))
  }

  /** The status record and the recorder agree on whether a recording is running, an idle
      server has no start time and zero elapsed time, and the store is well formed. */
  predicate Consistent(s: Server) {
    && Recorder.WellFormed(s.store)
    && s.status.isRecording == s.recorder.isRecording
    && (s.status.isRecording ==> s.recorder.streamOpen && s.status.startTime.Some?)
    && (!s.status.isRecording ==> !s.recorder.streamOpen && s.status.startTime.None? && s.status.elapsedTime == 0)
  }

  /** `GET /api/status`: exactly the current flag and elapsed time; nothing changes. */
  function GetStatus(s: Server): (r: Response<StatusReport>)
    ensures r.Success?
    ensures r.body.isRecording == s.status.isRecording && r.body.elapsedTime == s.status.elapsedTime
  {
    Success(StatusReport(s.status.isRecording, s.status.elapsedTime))
  }

  /** `POST /api/start-recording` at clock reading `now`. */
  function StartRecording(s: Server, now: nat): (result: (Server, Response<StartAck>))
    ensures result.1.Success?
    ensures !s.status.isRecording ==>
      && result.1.body == StartAck(RecordingStarted, 0)
      && result.0.status == RecordingStatus(true, Some(now), 0)
      && result.0.recorder == Recorder.StartRecording(s.recorder)
      && result.0.store == s.store
    ensures s.status.isRecording ==>
      && result.1.body == StartAck(AlreadyRecording, s.status.elapsedTime)
      && result.0 == s
  {
    if !s.status.isRecording then
      (s.(recorder := Recorder.StartRecording(s.recorder), status := RecordingStatus(true, Some(now), 0)),
       Success(StartAck(RecordingStarted, 0)))
    else
      (s, Success(StartAck(AlreadyRecording, s.status.elapsedTime)))
  }

  /** `POST /api/stop-recording`; `token` stands for the uuid of the WAV file name. */
  function StopRecording(s: Server, token: string): (result: (Server, Response<StopAck>))
    ensures result.1.Success?
    ensures s.status.isRecording ==>
      && result.1.body == StopAck(ProcessingStarted, Some(Recorder.RecordingName(token)))
      && result.0.status == RecordingStatus(false, None, 0)
      && result.0.recorder.currentFilename == result.1.body.filename
      && Recorder.RecordingName(token) in result.0.store.audio
    ensures !s.status.isRecording ==>
      && result.1.body == StopAck(NotRecording, None)
      && result.0 == s
  {
    if s.status.isRecording then
      var (rec, store, name) := Recorder.StopRecording(s.recorder, s.store, token);
      (Server(RecordingStatus(false, None, 0), rec, store), Success(StopAck(ProcessingStarted, Some(name))))
    else
      (s, Success(StopAck(NotRecording, None)))
  }

  const NoFilename := "No filename provided"

  /** `POST /api/process` with the request's `filename` field (None when missing). A missing
      or empty name is refused with 400 before the recorder is called; otherwise the
      recorder's answer is sent with status 200, whether it is a form or an error. */
  function ProcessRecording(s: Server, filename: Option<string>,
                            speech: Recorder.External<string>,
                            extraction: Recorder.External<Form100.Fields>): (result: (Server, Response<ProcessOutcome>))
    ensures filename.None? || filename.value == "" ==>
      result == (s, ErrorStatus(400, NoFilename))
    ensures filename.Some? && filename.value != "" ==>
      var (outcome, store) := Recorder.ProcessRecording(s.recorder, s.store, filename, speech, extraction);
      && result == (s.(store := store), Success(outcome))
      && result.0.status == s.status && result.0.recorder == s.recorder
  {
    if filename.None? || filename.value == "" then
      (s, ErrorStatus(400, NoFilename))
    else
      var (outcome, store) := Recorder.ProcessRecording(s.recorder, s.store, filename, speech, extraction);
      (s.(store := store), Success(outcome))
  }

  const FormNotFound := "Form data not found"
  const TranscriptionNotFound := "Transcription not found"

  /** `GET /api/get-form`: the stored form, or 404 when none was written. */
  function GetForm(s: Server): (r: Response<FormData>)
    ensures r.Success? <==> s.store.form.Some?
    ensures r.Success? ==> r.body == s.store.form.value
    ensures r.ErrorStatus? ==> r == ErrorStatus(404, FormNotFound)
  {
    match s.store.form
    case Some(f) => Success(f)
    case None => ErrorStatus(404, FormNotFound)
  }

  /** `GET /api/get-transcription`: the stored text, or 404 when none was written. */
  function GetTranscription(s: Server): (r: Response<TranscriptBody>)
    ensures r.Success? <==> s.store.transcription.Some?
    ensures r.Success? ==> r.body.transcription == s.store.transcription
    ensures r.ErrorStatus? ==> r == ErrorStatus(404, TranscriptionNotFound)
  {
    match s.store.transcription
    case Some(t) => Success(TranscriptBody(Some(t)))
    case None => ErrorStatus(404, TranscriptionNotFound)
  }

  /** `POST /api/save-form`: overwrites the stored form. */
  function SaveForm(s: Server, form: FormData): (result: (Server, Response<string>))
    ensures result.1 == Success(FormSaved)
    ensures result.0.status == s.status && result.0.recorder == s.recorder
    ensures result.0.store.audio == s.store.audio && result.0.store.transcription == s.store.transcription
    ensures result.0.store.other == s.store.other
  {
    (s.(store := s.store.(form := Some(form))), Success(FormSaved))
  }

  /** Saving then fetching gives back the saved form, whatever was stored before. */
  lemma SaveThenGet(s: Server, form: FormData)
    ensures GetForm(SaveForm(s, form).0) == Success(form)
  {
  }

  /** A fresh server in a directory without `filled_form100.json` has no form to give. */
  lemma NothingSavedYet(files: set<string>, transcription: Option<string>)
    requires Recorder.TranscriptFile !in files && Recorder.FormFile !in files
    ensures GetForm(Initial(files, transcription, None)) == ErrorStatus(404, FormNotFound)
  {
  }

  /** A server restarted after an earlier run serves the files that run left. */
  lemma RestartServesEarlierFiles(files: set<string>, text: string, form: FormData)
    requires Recorder.TranscriptFile !in files && Recorder.FormFile !in files
    ensures GetForm(Initial(files, Some(text), Some(form))) == Success(form)
    ensures GetTranscription(Initial(files, Some(text), Some(form))) == Success(TranscriptBody(Some(text)))
  {
  }

  /** Get-form and get-transcription succeed exactly when their file exists. */
  lemma ServedExactlyWhenExists(s: Server)
    requires Consistent(s)
    ensures GetForm(s).Success? <==> Recorder.Exists(s.store, Recorder.FormFile)
    ensures GetTranscription(s).Success? <==> Recorder.Exists(s.store, Recorder.TranscriptFile)
  {
  }

  /** Start is idempotent: a second start changes nothing and answers `already_recording`
      with the elapsed time. */
  lemma StartIdempotent(s: Server, now: nat, later: nat)
    ensures var (s1, _) := StartRecording(s, now);
      var (s2, r2) := StartRecording(s1, later);
      s2 == s1 && r2 == Success(StartAck(AlreadyRecording, s1.status.elapsedTime))
  {
  }

  /** Stop is idempotent: a second stop changes nothing and answers `not_recording`. */
  lemma StopIdempotent(s: Server, token: string, token2: string)
    ensures var (s1, _) := StopRecording(s, token);
      var (s2, r2) := StopRecording(s1, token2);
      s2 == s1 && r2 == Success(StopAck(NotRecording, None))
  {
  }

  /** Every endpoint keeps the status record and the recorder in step, and the store well formed. */
  lemma EndpointsKeepConsistent(s: Server, now: nat, token: string, filename: Option<string>,
                                speech: Recorder.External<string>,
                                extraction: Recorder.External<Form100.Fields>, form: FormData)
    requires Consistent(s)
    ensures Consistent(StartRecording(s, now).0)
    ensures Consistent(StopRecording(s, token).0)
    ensures Consistent(ProcessRecording(s, filename, speech, extraction).0)
    ensures Consistent(SaveForm(s, form).0)
  {
  }

  /** Start, stop, then process the name the stop returned, with both services answering:
      the answer is the template filled with the extracted fields, and get-form and
      get-transcription then serve that form and that text. */
  lemma RecordingPipeline(s: Server, now: nat, token: string, text: string, fields: Form100.Fields)
    requires !s.status.isRecording
    ensures var (s1, _) := StartRecording(s, now);
      var (s2, stop) := StopRecording(s1, token);
      var (s3, processed) := ProcessRecording(s2, stop.body.filename, Recorder.Returned(text), Recorder.Returned(fields));
      && stop.body.status == ProcessingStarted
      && processed == Success(Filled(Form100.Fill(Form100.Template(), fields)))
      && GetForm(s3) == Success(Form100.Fill(Form100.Template(), fields))
      && GetTranscription(s3) == Success(TranscriptBody(Some(text)))
      && !s3.status.isRecording
  {
  }
}

=== FILE: time_format.dfy ===
/** The `MM:SS` clock shown while recording (`formatTime` in App.tsx and,
    identically, in Recording.tsx). */
module TimeFormat {
  import opened Decimal
  import opened Opt

  /** `s.padStart(2, '0')`: left-pad with zeros up to two characters; longer strings are kept. */
  function PadStart2(s: string): (r: string)
    ensures |s| >= 2 ==> r == s
    ensures |s| < 2 ==> |r| == 2 && r[2 - |s|..] == s
    ensures |s| < 2 ==> forall i :: 0 <= i < 2 - |s| ==> r[i] == '0'
  {
    if |s| >= 2 then s else if |s| == 1 then "0" + s else "00"
  }

  /** Minutes (floor of seconds / 60), a colon, then the remaining seconds, each padded to two digits. */
  function FormatTime(seconds: nat): string {
    PadStart2(ToDecimal(seconds / 60)) + ":" + PadStart2(ToDecimal(seconds % 60))
  }

  /** The reader a user applies to the clock: digits, a colon, exactly two digits below 60. */
  function ParseTime(t: string): Option<nat> {
    if |t| >= 4 && t[|t| - 3] == ':' then ParseClock(t[..|t| - 3], t[|t| - 2..]) else None
  }

  /** The minutes and seconds parts of the clock, read as a number of seconds. */
  function ParseClock(mm: string, ss: string): Option<nat> {
    if AllDigits(mm) && AllDigits(ss) && ParseDecimal(ss) < 60
    then Some(ParseDecimal(mm) * 60 + ParseDecimal(ss))
    else None
  }

  /** A padded decimal still reads back as the number it came from. */
  lemma PaddedDecimal(n: nat)
    ensures AllDigits(PadStart2(ToDecimal(n)))
    ensures ParseDecimal(PadStart2(ToDecimal(n))) == n
    ensures |PadStart2(ToDecimal(n))| == if n < 100 then 2 else |ToDecimal(n)|
  {
    var d := ToDecimal(n);
    ParseToDecimal(n);
    ToDecimalLength(n);
    if |d| == 1 {
      ParseLeadingZero(d);
    }
  }

  /** Minutes and two digits of seconds joined by a colon read back as their total in seconds. */
  lemma ParseJoined(mm: string, ss: string)
    requires |mm| >= 1 && AllDigits(mm)
    requires |ss| == 2 && AllDigits(ss) && ParseDecimal(ss) < 60
    ensures ParseTime(mm + ":" + ss) == Some(ParseDecimal(mm) * 60 + ParseDecimal(ss))
  {
    ClockParts(mm, ss);
    ReadAtColon(mm + ":" + ss, mm, ss);
    ClockValue(mm, ss);
  }

  /** Digit strings with seconds below 60 read as minutes times 60 plus seconds. */
  lemma ClockValue(mm: string, ss: string)
    requires AllDigits(mm) && AllDigits(ss) && ParseDecimal(ss) < 60
    ensures ParseClock(mm, ss) == Some(ParseDecimal(mm) * 60 + ParseDecimal(ss))
  {
  }

  /** The reader splits at the colon three characters from the end. */
  lemma ReadAtColon(t: string, mm: string, ss: string)
    requires |t| >= 4 && t[|t| - 3] == ':' && t[..|t| - 3] == mm && t[|t| - 2..] == ss
    ensures ParseTime(t) == ParseClock(mm, ss)
  {
  }

  /** Where the reader finds the colon and the two parts of a joined clock. */
  lemma ClockParts(mm: string, ss: string)
    requires |mm| >= 1 && |ss| == 2
    ensures var t := mm + ":" + ss;
      && |t| >= 4 && t[|t| - 3] == ':' && t[..|t| - 3] == mm && t[|t| - 2..] == ss
  {
    var t := mm + ":" + ss;
    assert t[..|mm|] == mm;
    assert t[|mm| + 1..] == ss;
  }

  /** The clock reads back as the elapsed seconds, for every elapsed time. */
  lemma FormatTimeRoundTrip(seconds: nat)
    ensures ParseTime(FormatTime(seconds)) == Some(seconds)
  {
    var mm := PadStart2(ToDecimal(seconds / 60));
    var ss := PadStart2(ToDecimal(seconds % 60));
    PaddedDecimal(seconds / 60);
    PaddedDecimal(seconds % 60);
    ParseJoined(mm, ss);
  }

  /** The clock is exactly five characters `MM:SS` below 100 minutes. */
  lemma FormatTimeShape(seconds: nat)
    ensures |FormatTime(seconds)| == 5 <==> seconds < 6000
    ensures seconds < 6000 ==> FormatTime(seconds)[2] == ':'
  {
    PaddedDecimal(seconds / 60);
    PaddedDecimal(seconds % 60);
    if seconds >= 6000 {
      ToDecimalLength(seconds / 60);
    }
  }
}
